=== FILE: README.md ===
# Portfolio site behaviour, in Dafny

This project models the small, discrete behaviours inside the React components of a personal portfolio site. Each one is a pure function or an explicit event-driven state machine, and the project proves what the components promise about them:

- **Theme provider**: the initial theme read from local storage, and the toggle guarded by `isTransitioning`. It also covers the 300 ms timer that lowers the guard, and the effect that writes the theme into the root element's class list and into storage.
- **Animated text**: the typewriter machine and its two timers. It also covers the pressure effect's hover state and distance buckets, the per-letter renderers of the pressure, wave and glow effects, and the dispatch on the effect name.
- **Scroll-reveal section**: the prop defaults, the hidden pose chosen by direction, the visible and hidden style pair, and the options handed to the scroll hook.
- **Contact form**: field edits, the browser's validation of the required fields and the e-mail address, submit, the 1500 ms send completion that clears the form, the 3000 ms expiry of the "thank you" banner, and what is rendered in each state.
- **Timeline entry and section**: skill truncation, the "+N more" / "Show less" button, the connector line, and the `isLast` flag and delays of the section's items.
- **Skills section**: whitelist categorisation, dropping of empty categories, and staggered delays.
- **Navigation bar**: the scroll threshold, the mobile menu, the disabling of both theme buttons during a transition, the icon choice, and the entrance delays.
- **Custom cursor**: the pressed / hovered size priority of ring and dot, the theme-dependent look, and the body cursor it hides.
- **Projects section**: the data-to-card mapping, and the card's optional image and live link and its hover overlay.
- **Footer**: quick-link anchors derived by lower-casing their labels, and the five fixed social-link positions, which crash the render when missing.
- **Background code-snippet grid**: count, row-major order, alternating samples, keys and base positions.

Every `setTimeout` continuation is an explicit event. For the theme and the form, the state counts the scheduled timers that have not yet fired. This makes "at most one transition in flight" and "the send and the banner never overlap" provable invariants (`Theme.RunValid`, `FormField.RunValid`). Local storage is a `map<string, string>` and the root class list is a `set<string>`.

One file per source component, plus `common.dfy`. `Common` holds `Option`, the order-preserving `Filter` that models `Array.prototype.filter`, and the decimal rendering of numbers in template strings, with its parse-back.

The model is of the code as written:

- The theme switch is one boolean guard with a single 300 ms timer. It is not a multi-phase cover/reveal sequence.
- The initial theme falls back to `dark` only. There is no operating-system preference fallback.
- There is no staged loading scheduler among these components.

## Model

| member | source | states |
|---|---|---|
| Theme.DefaultContext | src/context/ThemeContext.tsx:11-15 | a consumer outside any provider sees the dark theme and no transition |
| Theme.InitialTheme | src/context/ThemeContext.tsx:23-26 | a missing or empty stored value gives `dark`; any other stored string is adopted as is, unvalidated; the result is never empty |
| Theme.Initial | src/context/ThemeContext.tsx:22-27 | the provider starts with the stored theme, or dark when none is stored (see Theme.InitialTheme); valid, not transitioning, with no timer pending |
| Theme.NextTheme | src/context/ThemeContext.tsx:45 | the next theme is always light or dark and differs from the current one; it is dark exactly when the current one is light |
| Theme.Toggle | src/context/ThemeContext.tsx:41-54 | while transitioning the toggle changes nothing; otherwise it raises the guard, switches light to dark and everything else to light, and schedules one reset timer |
| Theme.TimerFired | src/context/ThemeContext.tsx:51-53 | the reset timer lowers the guard and leaves the theme alone |
| Theme.StepValid | src/context/ThemeContext.tsx:41-54 | every toggle or timer event keeps "guard up exactly while one reset timer is pending"; never two timers at once |
| Theme.RunValid | src/context/ThemeContext.tsx:41-54 | the same invariant holds after any sequence of toggles and timer completions |
| Theme.TogglesDuringTransitionIgnored | src/context/ThemeContext.tsx:42 | any number of toggles during a transition are refused, not queued: the state is exactly as before |
| Theme.ToggleTwiceRestores | src/context/ThemeContext.tsx:44-53 | from light or dark, toggle, timer, toggle gives back the original theme |
| Theme.Sync | src/context/ThemeContext.tsx:29-39 | after the effect the root has the `dark` class exactly when the theme is dark and storage holds the theme under `theme`; other classes and keys are untouched |
| Theme.SyncIdempotent | src/context/ThemeContext.tsx:29-39 | running the effect twice is running it once |
| Theme.ReloadRestoresTheme | src/context/ThemeContext.tsx:23-39 | what the effect stores is what the next page load starts with |
| Theme.Mount | src/context/ThemeContext.tsx:21-39 | mounting adopts a non-empty stored theme, falls back to dark when storage holds no or an empty value, and leaves the document consistent with the result |
| Theme.ProviderRunConsistent | src/context/ThemeContext.tsx:29-54 | after any events the class list and storage still agree with the theme and the guard still matches the pending timer |
| TextAnimation.Tick | src/components/TextAnimation.tsx:25-43 | a typewriter tick appends exactly the next character of the text and advances the index; at the end it restarts when looping and is idle otherwise; other effects never change; the prefix invariant is preserved |
| TextAnimation.Restart | src/components/TextAnimation.tsx:46-55 | the mount-delay timer resets the typewriter to the blank state, and only under the typewriter effect |
| TextAnimation.TicksTypePrefix | src/components/TextAnimation.tsx:27-31 | after n ticks from blank (n at most the length) exactly the first n characters are shown |
| TextAnimation.FinishedStaysFinished | src/components/TextAnimation.tsx:27-42 | without looping, no further tick changes a finished typewriter |
| TextAnimation.TypesWholeText | src/components/TextAnimation.tsx:25-43 | without looping, after at least as many ticks as characters the whole text is shown for good |
| TextAnimation.LoopPeriod | src/components/TextAnimation.tsx:34-40 | with looping, length + 1 ticks bring the typewriter back to the blank state |
| TextAnimation.TypewriterRunTyping | src/components/TextAnimation.tsx:25-55 | in any interleaving of the two timers, each firing seeing the state left by the previous one, the shown text is the prefix of the text up to the index |
| TextAnimation.LetterHover | src/components/TextAnimation.tsx:58-62 | entering a letter records it only under the pressure effect |
| TextAnimation.LetterLeave | src/components/TextAnimation.tsx:64-68 | leaving a letter clears the hover only under the pressure effect |
| TextAnimation.PressureEmphasis | src/components/TextAnimation.tsx:74-82 | a letter is pressed iff hovered, near iff at distance 1, neighbour iff at distance 2, and plain at larger distance or with nothing hovered |
| TextAnimation.PressureClass | src/components/TextAnimation.tsx:74-82 | a letter out of reach gets no emphasis classes (every letter keeps its fixed `inline-block` transition classes); any other gets a transform scaling it by its bucket's percentage |
| TextAnimation.PressureFadesWithDistance | src/components/TextAnimation.tsx:74-82 | a letter closer to the hovered one is never scaled less, and the effect is symmetric around it |
| TextAnimation.LetterKey | src/components/TextAnimation.tsx:73 | a key starts with its letter and a dash, followed by at least one more character (the position) |
| TextAnimation.Letters | src/components/TextAnimation.tsx:70-115 | one span per character, in order, showing a space as a non-breaking space and any other character unchanged |
| TextAnimation.RenderPressure | src/components/TextAnimation.tsx:70-89 | one span per character, each with the emphasis bucket of its distance from the hovered letter |
| TextAnimation.RenderWave | src/components/TextAnimation.tsx:91-104 | one span per character; the first starts its wave at once and each further one 0.1 s after the previous |
| TextAnimation.RenderGlow | src/components/TextAnimation.tsx:106-115 | one span per character, all with the same glow style |
| TextAnimation.LetterKeysDistinct | src/components/TextAnimation.tsx:73 | no two letter spans share a key, even for repeated letters |
| TextAnimation.RenderEffect | src/components/TextAnimation.tsx:117-130 | pressure, wave and glow render one span per character; the typewriter renders what it has typed; an unrecognised effect renders the raw text |
| TextAnimation.DefaultsShowPlainPressure | src/components/TextAnimation.tsx:12-18 | without an `effect` or `loop` prop every letter renders unpressed until hovered and no typewriter tick changes anything |
| TextAnimation.ShownTextIsText | src/components/TextAnimation.tsx:70-130 | for text without a non-breaking space, reading the rendered characters back gives the text for every effect but the typewriter, which shows a prefix of it |
| TextAnimation.NbspReadsBackAsSpace | src/components/TextAnimation.tsx:86-115 | a non-breaking space in the text is rendered like a space and reads back as a plain space, so such text is not recovered |
| AnimatedSection.HiddenPose | src/components/AnimatedSection.tsx:33-46 | `up` and any unknown name wait `distance` below, `left` `distance` to the right; `down` waits `distance` above and `right` `distance` to the left, unless the distance is negative, when the doubled minus sign makes the declaration invalid and it is dropped |
| AnimatedSection.DirectionNamesTheMotion | src/components/AnimatedSection.tsx:33-46 | `up` rises, `down` drops, `left` slides left and `right` slides right, each by the distance; an unknown name acts as `up`; with a negative distance `down` and `right` do not move |
| AnimatedSection.HiddenPoseDistinguishesDirections | src/components/AnimatedSection.tsx:33-46 | for a positive distance the four named directions give four different hidden poses; for a negative one only `down` and `right` coincide |
| AnimatedSection.AnimationStyle | src/components/AnimatedSection.tsx:48-53 | opacity 1 and the identity transform exactly when visible, opacity 0 and the hidden pose otherwise; duration and delay from the props |
| AnimatedSection.NoMixedStyle | src/components/AnimatedSection.tsx:48-50 | the style is never half visible: opacity and transform always come from the same branch |
| AnimatedSection.TimingIndependentOfVisibility | src/components/AnimatedSection.tsx:51-52 | becoming visible does not change the transition duration or delay |
| AnimatedSection.DefaultHiddenPose | src/components/AnimatedSection.tsx:20-53 | with the defaults a hidden section waits 50 px below its place, fading over 0.7 s without delay |
| AnimatedSection.ObserverOptions | src/components/AnimatedSection.tsx:27-30 | the scroll hook gets the `threshold` prop and `triggerOnce` equal to `once` |
| AnimatedSection.DefaultObserverOptions | src/components/AnimatedSection.tsx:22-30 | by default the hook observes at threshold 0.1 and triggers once |
| FormField.Initial | src/components/FormField.tsx:10-17 | all four fields empty, neither submitting nor submitted |
| FormField.HandleChange | src/components/FormField.tsx:20-26 | the named field takes the new value; the other three fields and both flags are unchanged |
| FormField.HandleSubmit | src/components/FormField.tsx:28-30 | submitting raises `isSubmitting`, keeps what was typed and schedules the completion timer |
| FormField.CompleteSend | src/components/FormField.tsx:32-44 | the completion clears every field, lowers `isSubmitting`, shows the banner and schedules its expiry |
| FormField.ExpireBanner | src/components/FormField.tsx:42-44 | the expiry hides the banner and changes nothing else |
| FormField.Render | src/components/FormField.tsx:56-146 | the banner replaces the form exactly while submitted; the form shows the entered values, its button is disabled iff a send is in progress and reads "Sending..." then, "Send Message" otherwise |
| FormField.Step | src/components/FormField.tsx:56-127 | an event the page cannot deliver (typing while the banner shows, clicking the disabled button, submitting values the browser's validation rejects) changes nothing |
| FormField.SubmitAcceptedIff | src/components/FormField.tsx:28-30 | a submit starts a send iff the form is shown, idle, every field is filled and the e-mail is a valid address; the empty initial form cannot be sent |
| FormField.EmailGrammar | src/components/FormField.tsx:84-93 | a `type="email"` value is valid iff it is a local part, one `@` and a domain; a domain is a label optionally followed by a dot and a further domain |
| FormField.NoLocalPartNoAddress | src/components/FormField.tsx:84-93 | a value with no `@`, or nothing before it, is not an address |
| FormField.TwoLabelAddress | src/components/FormField.tsx:84-93 | any local part at a domain of two labels is an address |
| FormField.MalformedDomains | src/components/FormField.tsx:84-93 | a domain starting with a hyphen or a dot, ending with a dot, or containing two dots in a row anywhere makes the value invalid |
| FormField.DoubledDotNotDomain | src/components/FormField.tsx:84-93 | no domain contains two dots in a row, at any position |
| FormField.TrailingDotNotDomain | src/components/FormField.tsx:84-93 | no domain ends with a dot |
| FormField.LeadingHyphenOrDotNotDomain | src/components/FormField.tsx:84-93 | no domain starts with a hyphen or a dot |
| FormField.AddressSplit | src/components/FormField.tsx:84-93 | after a local part, the rest of the value makes an address iff it is a domain |
| FormField.PlaceholderAddressValid | src/components/FormField.tsx:92 | the field's placeholder `john@example.com` is an address |
| FormField.DoubledDotInvalid | src/components/FormField.tsx:92 | `john@example..com` is not |
| FormField.StepValid | src/components/FormField.tsx:28-45 | each event keeps "submitting exactly while the send timer is pending, banner exactly while its timer is pending, never both" |
| FormField.RunValid | src/components/FormField.tsx:28-45 | after any events at most one timer of each kind is pending and the invariant holds |
| FormField.SubmitCycleResets | src/components/FormField.tsx:10-45 | submit, completion and expiry bring the form back to its initial state whatever valid values were typed |
| FormField.ChangesCommute | src/components/FormField.tsx:20-26 | edits to different fields commute; a later edit of a field overrides an earlier one |
| ExperienceItem.VisibleSkills | src/components/ExperienceItem.tsx:31 | expanded shows every skill; collapsed shows the first min(3, n) skills, always a prefix |
| ExperienceItem.ShowsToggle | src/components/ExperienceItem.tsx:32-86 | the button is rendered iff there are more than three skills |
| ExperienceItem.CollapsedAccountsForAll | src/components/ExperienceItem.tsx:31-32 | the collapsed list followed by the hidden count's worth of skills is the whole list |
| ExperienceItem.ExpandingOnlyAdds | src/components/ExperienceItem.tsx:31 | expanding never hides a skill that was shown |
| ExperienceItem.Label | src/components/ExperienceItem.tsx:91 | "Show less" exactly when expanded; otherwise a count that is positive iff the button shows and then equals the number of hidden skills |
| ExperienceItem.LabelCountReadsBack | src/components/ExperienceItem.tsx:91 | the rendered "+N more" text reads back to N = number of skills minus three |
| ExperienceItem.ToggleShowAll | src/components/ExperienceItem.tsx:88 | the button flips the expanded flag |
| ExperienceItem.Render | src/components/ExperienceItem.tsx:31-91 | the connector line is drawn iff the entry is not last; the badges are a prefix of the skills (all of them when expanded, three at most when collapsed); the button appears iff more than three skills exist and reads "Show less" when expanded, otherwise the number of skills not shown |
| Experience.Items | src/sections/Experience.tsx:30-37 | one item per entry, in order, with the entry unchanged, `isLast` exactly at the final index and delay a tenth of a second per position |
| Experience.ExactlyOneLast | src/sections/Experience.tsx:34 | exactly one item is last when there are entries, none otherwise |
| Experience.DelaysNonDecreasing | src/sections/Experience.tsx:35 | later items never start earlier |
| Experience.OnlyLastLacksConnector | src/sections/Experience.tsx:34 | together with the item component, exactly the entries before the final one draw the connector |
| Skills.CategorySkills | src/sections/Skills.tsx:47-85 | a category shows only skills that are in the profile and in its whitelist, and every whitelisted profile skill |
| Skills.CategoryKeepsOrderAndRepeats | src/sections/Skills.tsx:47-49 | a category keeps the profile's order and each whitelisted skill's multiplicity, and drops every other skill |
| Skills.Views | src/sections/Skills.tsx:43-85 | one view per category, in the order given, carrying the category's title and exactly the profile skills its whitelist passes |
| Skills.SkillCategories | src/sections/Skills.tsx:43-86 | at most six categories shown, none empty, each one of the declared categories with its filtered skills |
| Skills.CategoryShownIff | src/sections/Skills.tsx:43-86 | a declared category is shown iff the profile has at least one of its whitelisted skills |
| Skills.CategoriesKeepDeclaredOrder | src/sections/Skills.tsx:43-86 | dropping empty categories keeps the declared order: the shown categories of a list split in two are those of the first part followed by those of the second |
| Skills.SharedSkillsAppearTwice | src/sections/Skills.tsx:47-69 | JavaScript appears under Frontend and Programming Languages, MongoDB under Backend and Database |
| Skills.Badges | src/sections/Skills.tsx:24-29 | one badge per skill, in order, badge j delayed 30 j ms |
| Skills.Cards | src/sections/Skills.tsx:107-114 | one card per shown category, in order, with its title, a delay of a tenth of a second per position, and one badge per skill of that category, in order, each 30 ms after the previous |
| Navbar.HandleScroll | src/components/Navbar.tsx:20-22 | the bar is scrolled iff the page is more than 10 px down; the menu is untouched |
| Navbar.ToggleMobileMenu | src/components/Navbar.tsx:29-31 | the menu button opens a closed menu and closes an open one |
| Navbar.MobileLinkClicked | src/components/Navbar.tsx:127 | following a mobile link closes the menu |
| Navbar.ToggleMenuTwiceIsIdentity | src/components/Navbar.tsx:29-31 | two presses of the menu button change nothing |
| Navbar.LastScrollWins | src/components/Navbar.tsx:19-27 | only the latest scroll position matters |
| Navbar.ThemeIcon | src/components/Navbar.tsx:81-85 | the sun shows iff the theme is dark |
| Navbar.Render | src/components/Navbar.tsx:34-118 | solid background iff scrolled; both theme buttons disabled iff the theme is transitioning; icon by theme; mobile menu shown iff open |
| Navbar.EnabledToggleIsAccepted | src/components/Navbar.tsx:72-94 | a click on an enabled theme button is accepted: the icon flips and both buttons become disabled |
| Navbar.InitialView | src/components/Navbar.tsx:8-9 | on mount the bar is transparent with the menu closed; opening it and following a link returns to that state |
| Navbar.LinkDelay | src/components/Navbar.tsx:56-62 | the first desktop link enters at once and each further one 0.1 s after the previous |
| Navbar.ToggleDelay | src/components/Navbar.tsx:62-79 | the theme button enters after every desktop link |
| Navbar.MobileLinkDelay | src/components/Navbar.tsx:62-130 | each mobile link carries an inline `animationDelay` of index × 0.05 s, half the desktop value; it has no visible effect, since the mobile links have no animation |
| CustomCursor.Step | src/components/CustomCursor.tsx:27-38 | mouse down and up set and clear `clicked` only; entering and leaving links set and clear `linkHovered` only |
| CustomCursor.ModeOf | src/components/CustomCursor.tsx:75 | pressing wins over hovering |
| CustomCursor.RingSize | src/components/CustomCursor.tsx:75 | ring w-6 when pressed, else w-12 when over a link, else w-8 |
| CustomCursor.DotSize | src/components/CustomCursor.tsx:92 | dot w-2 when pressed, else w-3 when over a link, else w-1 |
| CustomCursor.RingAndDotAgree | src/components/CustomCursor.tsx:75-92 | ring and dot sizes determine each other and the mode |
| CustomCursor.PressReleaseRestoresSize | src/components/CustomCursor.tsx:27-28 | press then release restores both sizes |
| CustomCursor.InitialCursorRests | src/components/CustomCursor.tsx:6-7 | the cursor starts at its resting sizes w-8 and w-1, and a click returns it there |
| CustomCursor.LookFor | src/components/CustomCursor.tsx:76-87 | dark theme: blue-400 border and exclusion blending; otherwise blue-600 and normal |
| CustomCursor.MountHidesUnmountShows | src/components/CustomCursor.tsx:60-71 | mounting hides the body cursor; teardown sets it to `auto` rather than restoring the previous value |
| Projects.CardList | src/sections/Projects.tsx:120-141 | one card per project, in order, with the project's name and repository link, the shared description and tags, no image or live link, and delay a tenth of a second per position |
| Projects.CardsReadOnlyNameAndLink | src/sections/Projects.tsx:120-125 | projects agreeing on name and repository link give the same cards, whatever else they contain |
| Projects.RenderCard | src/sections/Projects.tsx:16-113 | picture iff a non-empty image is given, else the placeholder; live link iff a non-empty one is given; overlay opaque iff hovered; description and tags default when not passed; both links go to the repository |
| Projects.SectionCardsAreUniform | src/sections/Projects.tsx:118-141 | every card of the section shows the placeholder, no live link, and the shared description and tags |
| Projects.Hover | src/sections/Projects.tsx:32-33 | entering sets the hover flag, leaving clears it |
| Projects.OverlayFollowsPointer | src/sections/Projects.tsx:32-52 | the overlay is opaque after the pointer entered and transparent after it left |
| Footer.Lower | src/sections/Footer.tsx:23 | lower-casing keeps the length and maps every character through the ASCII lower-case map |
| Footer.LowerIdempotent | src/sections/Footer.tsx:23 | lower-casing twice is lower-casing once |
| Footer.Anchor | src/sections/Footer.tsx:23 | an anchor is `#` followed by the lower-cased caption |
| Footer.QuickLinks | src/sections/Footer.tsx:21-24 | the quick links keep the count, order and captions of the data, each with its derived anchor |
| Footer.AnchorsCollideOnlyByCase | src/sections/Footer.tsx:23 | two captions give the same anchor iff they differ only in letter case |
| Footer.AnchorIsLowerCase | src/sections/Footer.tsx:23 | anchors are already lower case |
| Footer.SocialLinks | src/sections/Footer.tsx:7-13 | the render crashes iff the data has fewer than five social links, at the first missing position; otherwise positions 0 to 4 with the labels LinkedIn, GitHub, Twitter, Instagram, Email |
| Footer.ExtraSocialLinksIgnored | src/sections/Footer.tsx:7-13 | entries past the fifth make no difference |
| Footer.Render | src/sections/Footer.tsx:7-97 | the footer renders iff all five social links exist, and then shows the title, description and copyright verbatim |
| CodeSnippets.Row | src/hooks/useCodeSnippets.tsx:33-54 | a row holds one snippet per column |
| CodeSnippets.RowsLength | src/hooks/useCodeSnippets.tsx:30-55 | n rows hold n times the row width snippets |
| CodeSnippets.RowsIndex | src/hooks/useCodeSnippets.tsx:30-55 | snippet (row, i) sits at position row × width + i: the enumeration is row-major |
| CodeSnippets.Enumerate | src/hooks/useCodeSnippets.tsx:25-57 | no snippets outside the browser; otherwise the nested loops produce exactly the row-major grid |
| CodeSnippets.GridShape | src/hooks/useCodeSnippets.tsx:30-41 | the grid has rows × columns snippets; the k-th shows the first sample iff k is even; its base top is offset + (k / width) × spacing |
| CodeSnippets.DefaultGrid | src/hooks/useCodeSnippets.tsx:15-41 | with the default parameters in the browser there are eight snippets, four with base top 15 and four with 45, the two samples alternating |
| CodeSnippets.KeyRoundTrip | src/hooks/useCodeSnippets.tsx:45 | a `row-i` key parses back to its row and column |
| CodeSnippets.KeysDistinct | src/hooks/useCodeSnippets.tsx:45 | different grid positions have different keys |
| Common.Filter | src/sections/Skills.tsx:86 | the filter keeps only elements satisfying the predicate, all of them, and never more than the input |
| Common.FilterAppend | src/sections/Skills.tsx:43-86 | filtering a concatenation concatenates the filtered parts, so relative order survives |
| Common.FilterMultiplicity | src/sections/Skills.tsx:47-49 | each kept element occurs as often as in the input; dropped ones not at all |
| Common.Decimal | src/components/ExperienceItem.tsx:91 | the interpolated number is a non-empty run of digits without a leading zero |
| Common.DecimalRoundTrip | src/hooks/useCodeSnippets.tsx:45 | the decimal rendering of a number parses back to the number |

## Left out

- Timing: real timers, `requestAnimationFrame` and event-listener registration are left out. Every timer continuation is an event, so the `speed`, `delay` and fixed durations (300, 1500, 2000 and 3000 ms) only choose when events happen.
- Timers on unmount: the theme and form timers are never cancelled on unmount, and their effect on an unmounted component is not modelled.
- The typewriter's cleanup cancels and reschedules its timer after every change. The model has one tick event standing for whichever timer is current.
- The `once` latch: the scroll-observation hook that implements it is not part of this model. Only the options passed to it (`AnimatedSection.ObserverOptions`) are.
- The hook's visibility flag is an input.
- Browser APIs: local storage and the root class list are an abstract map and set. `window.scrollY` is an input. IntersectionObserver, the pointer position and the cursor's per-frame transform are not modelled.
- Randomness in the snippet grid: the positional jitter, opacity, width and font size. Each snippet carries its base position only.
- Floating-point arithmetic: delays such as `i * 0.1` are exact reals. JavaScript's rounding of these values, and their formatting into CSS strings, are not modelled.
- CodeSnippets.Enumerate: the counts are integers. JavaScript loops over a fractional `rowCount` or `snippetsPerRow` (2.5 rows run three times) are not modelled.
- Footer.Lower: lower-cases ASCII letters only. `toLowerCase` on other scripts (and its length-changing cases) is not modelled.
- FormField.CompleteSend and FormField.ExpireBanner require a pending timer of their kind. A continuation never runs without having been scheduled, so every real firing meets that precondition.
- TextAnimation.Tick and TextAnimation.Letters: a Dafny string is a sequence of Unicode scalar values, while `text.length`, `text[i]` and `text.split('')` (src/components/TextAnimation.tsx:27-29, 71, 92, 107) count UTF-16 code units. For text inside the Basic Multilingual Plane the two agree. For a character outside it the source takes two ticks, shows a lone surrogate in between, and renders two spans with two keys; the model takes one tick and renders one span. The same holds for TextAnimation.RenderEffect and TextAnimation.ShownTextIsText.
- CustomCursor.Step: `LinkEnter` and `LinkLeave` are free events. The source attaches its hover listeners once, at mount, to the `a` and `button` elements present then (src/components/CustomCursor.tsx:31-38, 73). Links rendered later, such as the mobile-menu links or the form's button once the banner goes, never set `linkHovered`. An element removed while hovered never sends `mouseleave`, so `linkHovered` can stay true.
- AnimatedSection.HiddenPose: `Dropped` stands for the inline transform being discarded, so that whatever transform the section's classes give it applies (src/widget/SkillCategory.tsx:46 passes `transform hover:-translate-y-2`). This never matters in the site, because no caller passes a negative distance together with `down` or `right`.
- FormField.Submittable: checks the values as stored. The browser first strips newlines from text inputs and leading and trailing whitespace from the e-mail input, and then shows its validation message; neither step is modelled. An address domain written with non-ASCII characters is not converted to its ASCII form.
- TextAnimation.ShownTextIsText: requires a text without a non-breaking space. The source accepts any text but shows both a space and U+00A0 as U+00A0, so it cannot tell them apart on screen (`TextAnimation.NbspReadsBackAsSpace`).
- TextAnimation.TypewriterRunTyping: each timer's state update is taken to be committed, and the typewriter effect re-run with its fresh cleanup, before the next timer fires. The tick callback captures `currentIndex` when it is scheduled (src/components/TextAnimation.tsx:29-30). A stale tick firing after the mount-delay reset (:48-51) but before its timer is cleared would show `text[k]` at index 1; that race is not modelled. With the default `delay` of 0, which every caller uses, the reset runs before the first tick.
- Navbar.MobileLinkDelay: the value is modelled, but it animates nothing; the mobile links have no animation class (src/components/Navbar.tsx:124-130).
- Theme.TimerFired with no pending timer changes nothing. That case never arises in a valid state.
- Class names, colours, icons, framer-motion animations and markup other than the behaviour above are left out. So are the `className` props.
- The other components are static markup or opaque animation library calls: the hero, laptop, loading screen, code rain, starry background, decorative animations, about, contact and the duplicate footer.
- The site data, and the `lazy` dynamic import of the app shell.
- A build-level defect: the contact and experience sections import a named `useCodeSnippets`, but the hook is only a default export (src/hooks/useCodeSnippets.tsx:63). They also pass `true` where an options object is expected (src/sections/Experience.tsx:5, 10). The model calls the hook with explicit parameters.
- The hook's effect lists a `codes` array among its dependencies, and that array is rebuilt on every render (src/hooks/useCodeSnippets.tsx:21, 58). `setCodeSnippets` (src/hooks/useCodeSnippets.tsx:57) stores a fresh array on every run, which re-renders the component, rebuilds `codes` and so re-runs the effect: the hook re-renders without end, drawing new random values each time. The model computes a single enumeration; the endless re-render loop is not modelled.

=== FILE: animated_section.dfy ===
/**
 The scroll-reveal wrapper: its prop defaults, the hidden pose chosen by the
 entrance direction, the style pair selected by visibility, and the options
 handed to the scroll-observation hook (whose latching is not modelled).
 */
module AnimatedSection {

  datatype Direction = Up | Down | Left | Right | Unrecognised

  /** A CSS transform, in pixels. `Identity` is `translate3d(0, 0, 0)`;
      `Dropped` is a declaration the browser rejects as invalid, so that the
      element keeps no transform of its own. */
  datatype Transform = Identity | TranslateX(dx: real) | TranslateY(dy: real) | Dropped

  datatype RevealProps = RevealProps(
    direction: Direction,
    delay: real,
    threshold: real,
    duration: real,
    distance: real,
    once: bool)

  /** The props an `AnimatedSection` gets when its caller passes none. */
  const Defaults: RevealProps := RevealProps(Up, 0.0, 0.1, 0.7, 50.0, true)

  /** `getTransformInitial`: where the section waits before it is revealed.
      `down` and `right` put a minus sign in front of the interpolated
      distance, so a negative distance yields `--d px`, which is not a length:
      the declaration is dropped and the section waits in place. */
  function HiddenPose(direction: Direction, distance: real): (t: Transform)
    ensures direction == Up || direction == Unrecognised ==> t == TranslateY(distance)
    ensures direction == Left ==> t == TranslateX(distance)
    ensures direction == Down ==> t == if distance < 0.0 then Dropped else TranslateY(-distance)
    ensures direction == Right ==> t == if distance < 0.0 then Dropped else TranslateX(-distance)
  {
    match direction
    case Up => TranslateY(distance)
    case Down => if distance < 0.0 then Dropped else TranslateY(-distance)
    case Left => TranslateX(distance)
    case Right => if distance < 0.0 then Dropped else TranslateX(-distance)
    case Unrecognised => TranslateY(distance)
  }

  /** The screen displacement, in pixels, that the reveal animation performs
      (from the hidden pose back to the resting position); y grows downwards. */
  function EntranceMotion(direction: Direction, distance: real): (m: (real, real))
  {
    match HiddenPose(direction, distance)
    case Identity => (0.0, 0.0)
    case Dropped => (0.0, 0.0)
    case TranslateX(dx) => (-dx, 0.0)
    case TranslateY(dy) => (0.0, -dy)
  }

  /** Each direction names the way the section travels as it is revealed:
      `up` rises into place, `down` drops, `left` slides leftwards and
      `right` rightwards, each by exactly `distance`; an unrecognised name
      behaves like `up`. A negative distance reverses `up` and `left` and
      leaves `down` and `right` without motion. */
  lemma DirectionNamesTheMotion(distance: real)
    ensures EntranceMotion(Up, distance) == (0.0, -distance)
    ensures EntranceMotion(Left, distance) == (-distance, 0.0)
    ensures distance >= 0.0 ==> EntranceMotion(Down, distance) == (0.0, distance)
    ensures distance >= 0.0 ==> EntranceMotion(Right, distance) == (distance, 0.0)
    ensures distance < 0.0 ==> EntranceMotion(Down, distance) == EntranceMotion(Right, distance) == (0.0, 0.0)
    ensures EntranceMotion(Unrecognised, distance) == EntranceMotion(Up, distance)
  {
  }

  /** For a positive distance the hidden pose tells the four named directions
      apart; for a negative one it still separates them, except that `down`
      and `right` both lose their pose. */
  lemma HiddenPoseDistinguishesDirections(a: Direction, b: Direction, distance: real)
    requires distance != 0.0
    requires a != Unrecognised && b != Unrecognised
    ensures distance > 0.0 && HiddenPose(a, distance) == HiddenPose(b, distance) ==> a == b
    ensures distance < 0.0 && HiddenPose(a, distance) == HiddenPose(b, distance) ==>
              a == b || ((a == Down || a == Right) && (b == Down || b == Right))
  {
  }

  /** The inline style of the section. */
  datatype Style = Style(opacity: int, transform: Transform, durationSeconds: real, delaySeconds: real)

  /** `animationStyle`: opacity and transform are picked by the same flag, so
      the section is either fully shown in place or hidden at its pose; the
      transition timing is the same either way. */
  function AnimationStyle(p: RevealProps, isVisible: bool): (s: Style)
    ensures s.opacity == 1 <==> isVisible
    ensures s.opacity == 0 <==> !isVisible
    ensures s.transform == Identity <==> isVisible
    ensures !isVisible ==> s.transform == HiddenPose(p.direction, p.distance)
    ensures s.durationSeconds == p.duration && s.delaySeconds == p.delay
  {
    if isVisible then Style(1, Identity, p.duration, p.delay)
    else Style(0, HiddenPose(p.direction, p.distance), p.duration, p.delay)
  }

  /** No style mixes the visible opacity with the hidden transform or the reverse. */
  lemma NoMixedStyle(p: RevealProps, isVisible: bool)
    ensures var s := AnimationStyle(p, isVisible);
            (s.opacity == 1 && s.transform == Identity) || (s.opacity == 0 && s.transform == HiddenPose(p.direction, p.distance))
  {
  }

  /** Becoming visible changes the opacity and the transform and nothing else. */
  lemma TimingIndependentOfVisibility(p: RevealProps)
    ensures AnimationStyle(p, true).durationSeconds == AnimationStyle(p, false).durationSeconds
    ensures AnimationStyle(p, true).delaySeconds == AnimationStyle(p, false).delaySeconds
  {
  }

  /** With the defaults the section waits 50 px below its place and fades in over 0.7 s. */
  lemma DefaultHiddenPose()
    ensures AnimationStyle(Defaults, false) == Style(0, TranslateY(50.0), 0.7, 0.0)
  {
  }

  /** The options passed to the scroll-observation hook. */
  datatype ScrollOptions = ScrollOptions(threshold: real, triggerOnce: bool)

  function ObserverOptions(p: RevealProps): (o: ScrollOptions)
    ensures o.triggerOnce == p.once && o.threshold == p.threshold
  {
    ScrollOptions(p.threshold, p.once)
  }

  lemma DefaultObserverOptions()
    ensures ObserverOptions(Defaults) == ScrollOptions(0.1, true)
  {
  }
}

=== FILE: code_snippets.dfy ===
/**
 The background code-snippet grid: `rowCount` rows of `snippetsPerRow`
 snippets, enumerated row by row, alternating between the two code
 samples. The random jitter of position, opacity, width and font size is
 not modelled; each snippet carries its base position only.
 */
module CodeSnippets {
  import opened Common

  datatype Params = Params(
    code1: string,
    code2: string,
    isClientSide: bool,
    snippetsPerRow: int,
    rowCount: int,
    offsetTop: int,
    spacingY: int)

  /** The hook's defaults: four per row, two rows, starting 15 % from the top, 30 % apart. */
  function Defaults(code1: string, code2: string, isClientSide: bool): Params
  {
    Params(code1, code2, isClientSide, 4, 2, 15, 30)
  }

  /** How many times a `for (let k = 0; k < n; k++)` loop runs. */
  function Iterations(n: int): nat
  {
    if n > 0 then n else 0
  }

  function Columns(p: Params): nat { Iterations(p.snippetsPerRow) }
  function RowsOf(p: Params): nat { Iterations(p.rowCount) }

  datatype Snippet = Snippet(key: string, code: string, baseTop: int, baseLeft: real)

  /** The React key `${row}-${i}`. */
  function Key(row: nat, i: nat): string
  {
    Decimal(row) + "-" + Decimal(i)
  }

  /** The snippet at column `i` of row `row`: its code cycles through the two
      samples by its position in the enumeration. */
  function SnippetAt(p: Params, row: nat, i: nat): Snippet
    requires i < Columns(p)
  {
    var codes := [p.code1, p.code2];
    Snippet(
      Key(row, i),
      codes[(row * Columns(p) + i) % |codes|],
      p.offsetTop + row * p.spacingY,
      (i as real / Columns(p) as real) * 85.0)
  }

  /** One row of the grid, left to right. */
  function Row(p: Params, row: nat): (r: seq<Snippet>)
    ensures |r| == Columns(p)
  {
    seq(Columns(p), i requires 0 <= i < Columns(p) => SnippetAt(p, row, i))
  }

  /** The first `n` rows, top to bottom. */
  function Rows(p: Params, n: nat): seq<Snippet>
  {
    if n == 0 then [] else Rows(p, n - 1) + Row(p, n - 1)
  }

  /** The first `n` rows hold `n` times the row width snippets. */
  lemma {:induction false} RowsLength(p: Params, n: nat)
    ensures |Rows(p, n)| == n * Columns(p)
  {
    if n > 0 {
      RowsLength(p, n - 1);
      assert n * Columns(p) == (n - 1) * Columns(p) + Columns(p);
    }
  }

  /** The enumeration is row-major: snippet (`row`, `i`) sits at `row * width + i`. */
  lemma {:induction false} RowsIndex(p: Params, n: nat, row: nat, i: nat)
    requires row < n && i < Columns(p)
    ensures row * Columns(p) + i < |Rows(p, n)|
    ensures Rows(p, n)[row * Columns(p) + i] == SnippetAt(p, row, i)
  {
    RowsLength(p, n - 1);
    if row < n - 1 {
      RowsIndex(p, n - 1, row, i);
    } else {
      assert row * Columns(p) == |Rows(p, n - 1)|;
    }
  }

  /** The hook's effect: nothing outside the browser, else the whole grid
      built by two nested loops. */
  method Enumerate(p: Params) returns (snippets: seq<Snippet>)
    ensures !p.isClientSide ==> snippets == []
    ensures p.isClientSide ==> snippets == Rows(p, RowsOf(p))
  {
    snippets := [];
    if !p.isClientSide {
      return;
    }
    var row := 0;
    while row < RowsOf(p)
      invariant row <= RowsOf(p)
      invariant snippets == Rows(p, row)
    {
      var i := 0;
      while i < Columns(p)
        invariant i <= Columns(p)
        invariant snippets == Rows(p, row) + Row(p, row)[..i]
      {
        snippets := snippets + [SnippetAt(p, row, i)];
        i := i + 1;
      }
      row := row + 1;
    }
  }

  lemma MulCancel(a: nat, b: nat, c: nat)
    requires a * c < b * c
    ensures a < b
  {
  }

  /** In the browser the grid has exactly `rowCount * snippetsPerRow`
      snippets (none when either is not positive), row-major, and the k-th
      snippet in that order shows the first sample when k is even and the
      second when k is odd. */
  lemma GridShape(p: Params, k: nat)
    requires k < |Rows(p, RowsOf(p))|
    ensures |Rows(p, RowsOf(p))| == RowsOf(p) * Columns(p)
    ensures Rows(p, RowsOf(p))[k].code == (if k % 2 == 0 then p.code1 else p.code2)
    ensures Rows(p, RowsOf(p))[k].baseTop == p.offsetTop + (k / Columns(p)) * p.spacingY
  {
    RowsLength(p, RowsOf(p));
    var c := Columns(p);
    assert c > 0;
    var row := k / c;
    var i := k % c;
    assert row * c + i == k;
    MulCancel(row, RowsOf(p), c);
    RowsIndex(p, RowsOf(p), row, i);
  }

  /** With the defaults the browser shows eight snippets: four at 15 % from
      the top and four at 45 %, the two samples alternating. */
  lemma DefaultGrid(code1: string, code2: string, k: nat)
    requires k < 8
    ensures var g := Rows(Defaults(code1, code2, true), 2);
            && |g| == 8
            && g[k].baseTop == (if k < 4 then 15 else 45)
            && g[k].code == (if k % 2 == 0 then code1 else code2)
  {
    var p := Defaults(code1, code2, true);
    assert RowsOf(p) == 2 && Columns(p) == 4;
    RowsLength(p, 2);
    GridShape(p, k);
  }

  /** Reads a `${row}-${i}` key back into its row and column. */
  function ParseKey(s: string): (nat, nat)
  {
    var d := IndexOf(s, '-');
    if d < |s| then (ParseDecimal(s[..d]), ParseDecimal(s[d + 1..])) else (ParseDecimal(s), 0)
  }

  /** A key names its snippet unambiguously: parsing it gives back the row and column. */
  lemma KeyRoundTrip(row: nat, i: nat)
    ensures ParseKey(Key(row, i)) == (row, i)
  {
    var a, b := Decimal(row), Decimal(i);
    var k := Key(row, i);
    assert k == a + ("-" + b);
    assert forall j :: 0 <= j < |a| ==> a[j] != '-';
    IndexOfAfter(a, "-" + b, '-');
    assert k[..|a|] == a;
    assert k[|a| + 1..] == b;
    assert ParseKey(k) == (ParseDecimal(a), ParseDecimal(b));
    DecimalRoundTrip(row);
    DecimalRoundTrip(i);
  }

  /** No two snippets of the grid share a key. */
  lemma KeysDistinct(r1: nat, i1: nat, r2: nat, i2: nat)
    requires (r1, i1) != (r2, i2)
    ensures Key(r1, i1) != Key(r2, i2)
  {
    KeyRoundTrip(r1, i1);
    KeyRoundTrip(r2, i2);
  }
}

=== FILE: common.dfy ===
/**
 Small shared vocabulary for the portfolio model: an optional value, the
 order-preserving filter used by the view derivations, and the decimal
 rendering of a count that a template string such as `+${n} more` produces.
 */
module Common {

  /** A value that may be absent (a `null`, an `undefined` or a missing prop). */
  datatype Option<+T> = None | Some(value: T)

  /** `Array.prototype.filter`: the elements of `s` satisfying `p`, in order. */
  function Filter<T>(p: T -> bool, s: seq<T>): (r: seq<T>)
    ensures |r| <= |s|
    ensures forall i :: 0 <= i < |r| ==> p(r[i]) && r[i] in s
    ensures forall i :: 0 <= i < |s| && p(s[i]) ==> s[i] in r
  {
    if |s| == 0 then []
    else if p(s[0]) then [s[0]] + Filter(p, s[1..])
    else Filter(p, s[1..])
  }

  /** Filtering a concatenation filters each part and keeps them in order:
      the relative order of the surviving elements is the input order. */
  lemma {:induction false} FilterAppend<T>(p: T -> bool, a: seq<T>, b: seq<T>)
    ensures Filter(p, a + b) == Filter(p, a) + Filter(p, b)
  {
    if |a| == 0 {
      assert a + b == b;
    } else {
      assert (a + b)[0] == a[0];
      assert (a + b)[1..] == a[1..] + b;
      FilterAppend(p, a[1..], b);
    }
  }

  /** Filtering keeps every surviving element as often as it occurs in the
      input (duplicates are preserved) and drops the others entirely. */
  lemma {:induction false} FilterMultiplicity<T>(p: T -> bool, s: seq<T>, x: T)
    ensures multiset(Filter(p, s))[x] == if p(x) then multiset(s)[x] else 0
  {
    if |s| == 0 {
    } else {
      assert s == [s[0]] + s[1..];
      assert multiset(s) == multiset([s[0]]) + multiset(s[1..]);
      FilterMultiplicity(p, s[1..], x);
    }
  }

  /** The position of the first `c` in `s`, or `|s|` when there is none
      (`indexOf`, with "not found" reported as the length). */
  function IndexOf(s: string, c: char): (d: nat)
    ensures d <= |s|
    ensures d < |s| ==> s[d] == c
    ensures forall j :: 0 <= j < d ==> s[j] != c
  {
    if |s| == 0 then 0 else if s[0] == c then 0 else 1 + IndexOf(s[1..], c)
  }

  /** The first `c` of `x + rest` is the one that starts `rest` when `x` has none. */
  lemma {:induction false} IndexOfAfter(x: string, rest: string, c: char)
    requires forall j :: 0 <= j < |x| ==> x[j] != c
    requires |rest| > 0 && rest[0] == c
    ensures IndexOf(x + rest, c) == |x|
  {
    if |x| > 0 {
      assert (x + rest)[1..] == x[1..] + rest;
      IndexOfAfter(x[1..], rest, c);
    }
  }

  function DigitChar(d: nat): (c: char)
    requires d < 10
    ensures '0' <= c <= '9'
  {
    ('0' as int + d) as char
  }

  function DigitValue(c: char): nat
  {
    if '0' <= c <= '9' then (c - '0') as nat else 0
  }

  /** The decimal form of a natural number, as JavaScript prints an integer
      that is interpolated into a template string. */
  function Decimal(n: nat): (s: string)
    ensures 1 <= |s|
    ensures forall i :: 0 <= i < |s| ==> '0' <= s[i] <= '9'
    ensures n >= 10 ==> s[0] != '0'
  {
    if n < 10 then [DigitChar(n)] else Decimal(n / 10) + [DigitChar(n % 10)]
  }

  /** Reads a string of decimal digits back as a number. */
  function ParseDecimal(s: string): nat
  {
    if |s| == 0 then 0 else ParseDecimal(s[..|s| - 1]) * 10 + DigitValue(s[|s| - 1])
  }

  /** The decimal rendering loses nothing: reading it back gives the number. */
  lemma {:induction false} DecimalRoundTrip(n: nat)
    ensures ParseDecimal(Decimal(n)) == n
  {
    if n >= 10 {
      var d := Decimal(n / 10);
      var c := DigitChar(n % 10);
      var s := d + [c];
      assert Decimal(n) == s;
      assert s[..|s| - 1] == d && s[|s| - 1] == c;
      assert ParseDecimal(s) == ParseDecimal(d) * 10 + DigitValue(c);
      DecimalRoundTrip(n / 10);
      assert DigitValue(c) == n % 10;
    }
  }

  /** Distinct numbers render as distinct strings. */
  lemma DecimalInjective(m: nat, n: nat)
    ensures Decimal(m) == Decimal(n) ==> m == n
  {
    DecimalRoundTrip(m);
    DecimalRoundTrip(n);
  }
}

=== FILE: custom_cursor.dfy ===
/**
 The custom cursor: a ring with a dot inside, sized by the pressed/hovering
 state, coloured by the theme, and the body cursor it hides while mounted.
 The pointer position and its animation-frame loop are not modelled.
 */
module CustomCursor {
  import Theme

  datatype CursorState = CursorState(clicked: bool, linkHovered: bool)

  /** Not pressed and not over a link. */
  const InitialCursor: CursorState := CursorState(false, false)

  datatype CursorEvent = MouseDown | MouseUp | LinkEnter | LinkLeave

  /** Button presses drive `clicked`, entering and leaving links and buttons
      drive `linkHovered`; neither touches the other. */
  function Step(s: CursorState, e: CursorEvent): (r: CursorState)
    ensures e == MouseDown ==> r.clicked && r.linkHovered == s.linkHovered
    ensures e == MouseUp ==> !r.clicked && r.linkHovered == s.linkHovered
    ensures e == LinkEnter ==> r.linkHovered && r.clicked == s.clicked
    ensures e == LinkLeave ==> !r.linkHovered && r.clicked == s.clicked
  {
    match e
    case MouseDown => s.(clicked := true)
    case MouseUp => s.(clicked := false)
    case LinkEnter => s.(linkHovered := true)
    case LinkLeave => s.(linkHovered := false)
  }

  /** The state that decides both sizes: pressing wins over hovering. */
  datatype Mode = Pressing | Hovering | Resting

  function ModeOf(s: CursorState): (m: Mode)
    ensures m == Pressing <==> s.clicked
    ensures m == Hovering <==> !s.clicked && s.linkHovered
  {
    if s.clicked then Pressing else if s.linkHovered then Hovering else Resting
  }

  /** `cursorSize`: the ring's Tailwind width unit (w-6, w-12 or w-8; height matches). */
  function RingSize(s: CursorState): (w: nat)
    ensures s.clicked ==> w == 6
    ensures !s.clicked && s.linkHovered ==> w == 12
    ensures !s.clicked && !s.linkHovered ==> w == 8
  {
    match ModeOf(s)
    case Pressing => 6
    case Hovering => 12
    case Resting => 8
  }

  /** The dot's Tailwind width unit (w-2, w-3 or w-1), with the same priority. */
  function DotSize(s: CursorState): (w: nat)
    ensures s.clicked ==> w == 2
    ensures !s.clicked && s.linkHovered ==> w == 3
    ensures !s.clicked && !s.linkHovered ==> w == 1
  {
    match ModeOf(s)
    case Pressing => 2
    case Hovering => 3
    case Resting => 1
  }

  /** Ring and dot never disagree about the mode: either size determines the other. */
  lemma RingAndDotAgree(s: CursorState, t: CursorState)
    ensures RingSize(s) == RingSize(t) <==> DotSize(s) == DotSize(t)
    ensures RingSize(s) == RingSize(t) <==> ModeOf(s) == ModeOf(t)
  {
  }

  /** Releasing the button restores the size the cursor had before pressing. */
  lemma PressReleaseRestoresSize(s: CursorState)
    requires !s.clicked
    ensures RingSize(Step(Step(s, MouseDown), MouseUp)) == RingSize(s)
    ensures DotSize(Step(Step(s, MouseDown), MouseUp)) == DotSize(s)
  {
  }

  /** The cursor starts at its resting size, and a click from there returns it to that state. */
  lemma InitialCursorRests()
    ensures ModeOf(InitialCursor) == Resting
    ensures RingSize(InitialCursor) == 8 && DotSize(InitialCursor) == 1
    ensures Step(Step(InitialCursor, MouseDown), MouseUp) == InitialCursor
  {
  }

  datatype BlendMode = Exclusion | Normal

  datatype Look = Look(borderColor: string, blend: BlendMode)

  function LookFor(theme: Theme.ThemeName): (l: Look)
    ensures theme == Theme.Dark ==> l == Look("border-blue-400", Exclusion)
    ensures theme != Theme.Dark ==> l == Look("border-blue-600", Normal)
  {
    if theme == Theme.Dark then Look("border-blue-400", Exclusion) else Look("border-blue-600", Normal)
  }

  /** The page body's cursor style, which the component owns while mounted. */
  datatype BodyCursor = Unset | Hidden | Auto

  function Mount(b: BodyCursor): BodyCursor
  {
    Hidden
  }

  function Unmount(b: BodyCursor): BodyCursor
  {
    Auto
  }

  /** While mounted the native cursor is hidden; teardown shows it again as
      `auto` rather than restoring what the page had before mounting. */
  lemma MountHidesUnmountShows(b: BodyCursor)
    ensures Mount(b) == Hidden
    ensures Unmount(Mount(b)) == Auto
    ensures b != Auto ==> Unmount(Mount(b)) != b
  {
  }
}

=== FILE: experience.dfy ===
/**
 The work-history section: one timeline item per experience entry, in data
 order, marked last for the final entry and delayed by a tenth of a second
 per position.
 */
module Experience {
  import ExperienceItem

  /** An entry of the site's experience data; every field is passed to the
      item unchanged (`logo` is passed too, and the item ignores it). */
  datatype ExperienceEntry = ExperienceEntry(
    title: string,
    company: string,
    duration: string,
    location: string,
    kind: string,
    description: string,
    skills: seq<string>,
    logo: string)

  datatype ItemProps = ItemProps(entry: ExperienceEntry, isLast: bool, delay: real)

  function Items(entries: seq<ExperienceEntry>): (items: seq<ItemProps>)
    ensures |items| == |entries|
    ensures forall i :: 0 <= i < |items| ==> items[i].entry == entries[i]
    ensures forall i :: 0 <= i < |items| ==> (items[i].isLast <==> i == |entries| - 1)
    ensures forall i :: 0 <= i < |items| ==> items[i].delay == i as real * 0.1
  {
    seq(|entries|, i requires 0 <= i < |entries| => ItemProps(entries[i], i == |entries| - 1, i as real * 0.1))
  }

  /** The positions of the items marked last. */
  function LastPositions(items: seq<ItemProps>): set<nat>
  {
    set i: nat | i < |items| && items[i].isLast
  }

  /** Exactly one item is marked last when there are entries, and none otherwise. */
  lemma ExactlyOneLast(entries: seq<ExperienceEntry>)
    ensures |entries| > 0 ==> LastPositions(Items(entries)) == {|entries| - 1}
    ensures |entries| == 0 ==> LastPositions(Items(entries)) == {}
  {
    var items := Items(entries);
    if |entries| > 0 {
      assert items[|entries| - 1].isLast;
    }
  }

  /** Later items never start their entrance before earlier ones. */
  lemma DelaysNonDecreasing(entries: seq<ExperienceEntry>, i: nat, j: nat)
    requires i <= j < |entries|
    ensures Items(entries)[i].delay <= Items(entries)[j].delay
  {
  }

  /** The positions whose item draws the connector line to the next one
      (the line does not depend on whether the item's skills are expanded). */
  function ConnectedPositions(items: seq<ItemProps>): set<nat>
  {
    set i: nat | i < |items| && ExperienceItem.Render(items[i].entry.skills, items[i].isLast, false).connector
  }

  /** Combined with the item component: every entry but the final one draws
      the connector line. */
  lemma OnlyLastLacksConnector(entries: seq<ExperienceEntry>)
    ensures var connected := ConnectedPositions(Items(entries));
            forall i: nat :: i in connected <==> i + 1 < |entries|
  {
  }
}

=== FILE: experience_item.dfy ===
/**
 One entry of the work-history timeline: the collapsed/expanded skill list,
 the "+N more" / "Show less" button and the connector line to the next entry.
 */
module ExperienceItem {
  import opened Common

  /** How many skills a collapsed entry shows. */
  const CollapsedCount: nat := 3

  function Min(a: int, b: int): int
  {
    if a <= b then a else b
  }

  /** `visibleSkills`: everything when expanded, otherwise the first three
      (or fewer, when there are fewer). */
  function VisibleSkills(skills: seq<string>, showAll: bool): (v: seq<string>)
    ensures showAll ==> v == skills
    ensures !showAll ==> |v| == Min(CollapsedCount, |skills|)
    ensures v <= skills
  {
    if showAll then skills else skills[..Min(CollapsedCount, |skills|)]
  }

  /** `hiddenSkillCount`, which is negative for short lists. */
  function HiddenSkillCount(skills: seq<string>): int
  {
    |skills| - CollapsedCount
  }

  /** The expand/collapse button is rendered only when some skills are hidden. */
  function ShowsToggle(skills: seq<string>): (b: bool)
    ensures b <==> |skills| > CollapsedCount
  {
    HiddenSkillCount(skills) > 0
  }

  /** The collapsed list and the count on the button together account for
      every skill: the shown ones are followed, in the full list, by exactly
      as many as the button announces. */
  lemma CollapsedAccountsForAll(skills: seq<string>)
    requires ShowsToggle(skills)
    ensures var shown := VisibleSkills(skills, false);
            shown + skills[|shown|..] == skills && |skills[|shown|..]| == HiddenSkillCount(skills)
  {
  }

  /** Expanding never hides a skill that the collapsed view showed. */
  lemma ExpandingOnlyAdds(skills: seq<string>)
    ensures VisibleSkills(skills, false) <= VisibleSkills(skills, true)
  {
  }

  datatype ButtonLabel = ShowLess | ShowMore(count: int)

  function Label(skills: seq<string>, showAll: bool): (l: ButtonLabel)
    ensures showAll <==> l == ShowLess
    ensures !showAll ==> l.ShowMore? && (l.count > 0 <==> ShowsToggle(skills))
    ensures !showAll && ShowsToggle(skills) ==> l.count == |skills| - |VisibleSkills(skills, false)|
  {
    if showAll then ShowLess else ShowMore(HiddenSkillCount(skills))
  }

  /** The text of the button: `Show less`, or `+N more`. */
  function LabelText(l: ButtonLabel): string
  {
    match l
    case ShowLess => "Show less"
    case ShowMore(n) => "+" + (if n < 0 then "-" + Decimal(-n) else Decimal(n)) + " more"
  }

  /** The number shown on a rendered button reads back as the number of hidden skills. */
  lemma LabelCountReadsBack(skills: seq<string>)
    requires ShowsToggle(skills)
    ensures var t := LabelText(Label(skills, false));
            && t[..1] == "+"
            && t[|t| - 5..] == " more"
            && ParseDecimal(t[1..|t| - 5]) == |skills| - CollapsedCount
  {
    var n: nat := HiddenSkillCount(skills);
    var t := LabelText(Label(skills, false));
    assert t == "+" + Decimal(n) + " more";
    assert t[1..|t| - 5] == Decimal(n);
    DecimalRoundTrip(n);
  }

  /** The button flips the expanded flag; two clicks restore it. */
  function ToggleShowAll(showAll: bool): (r: bool)
    ensures r != showAll
  {
    !showAll
  }

  /** What an entry renders: the connector line to the next entry, the
      skill badges, and the expand/collapse button when there is one. */
  datatype ItemView = ItemView(connector: bool, shownSkills: seq<string>, button: Option<ButtonLabel>)

  /** The gradient line is drawn for every entry but the last; the button
      appears only when some skills are hidden, and when collapsed it counts
      exactly the skills that are not shown. */
  function Render(skills: seq<string>, isLast: bool, showAll: bool): (v: ItemView)
    ensures v.connector <==> !isLast
    ensures v.shownSkills <= skills && (showAll ==> v.shownSkills == skills)
    ensures !showAll ==> |v.shownSkills| == Min(CollapsedCount, |skills|)
    ensures v.button.Some? <==> |skills| > CollapsedCount
    ensures v.button.Some? && showAll ==> v.button.value == ShowLess
    ensures v.button.Some? && !showAll ==> v.button.value == ShowMore(|skills| - |v.shownSkills|)
  {
    ItemView(
      !isLast,
      VisibleSkills(skills, showAll),
      if ShowsToggle(skills) then Some(Label(skills, showAll)) else None)
  }
}

=== FILE: footer.dfy ===
/**
 The page footer: quick links whose anchors are derived from their labels,
 five social links read from fixed positions of the site data, and the
 copyright line.
 */
module Footer {
  import opened Common

  datatype QuickLinkData = QuickLinkData(caption: string)
  datatype SocialLinkData = SocialLinkData(href: string)

  datatype FooterData = FooterData(
    title: string,
    description: string,
    socialLinks: seq<SocialLinkData>,
    quickLinks: seq<QuickLinkData>,
    copyright: string)

  /** Lower-cases one character (ASCII letters only). */
  function LowerChar(c: char): (d: char)
    ensures !('A' <= d <= 'Z')
    ensures !('A' <= c <= 'Z') ==> d == c
  {
    if 'A' <= c <= 'Z' then (c - 'A' + 'a') as char else c
  }

  /** `String.prototype.toLowerCase` on ASCII text. */
  function Lower(s: string): (t: string)
    ensures |t| == |s|
    ensures forall i :: 0 <= i < |s| ==> t[i] == LowerChar(s[i])
  {
    seq(|s|, i requires 0 <= i < |s| => LowerChar(s[i]))
  }

  /** Lower-casing is idempotent. */
  lemma LowerIdempotent(s: string)
    ensures Lower(Lower(s)) == Lower(s)
  {
  }

  datatype QuickLink = QuickLink(caption: string, href: string)

  /** An in-page anchor for a caption. */
  function Anchor(caption: string): (h: string)
    ensures |h| == |caption| + 1 && h[0] == '#'
    ensures h[1..] == Lower(caption)
  {
    "#" + Lower(caption)
  }

  /** `quickLinks`: the data's links with their labels and derived anchors. */
  function QuickLinks(d: FooterData): (links: seq<QuickLink>)
    ensures |links| == |d.quickLinks|
    ensures forall i :: 0 <= i < |links| ==> links[i].caption == d.quickLinks[i].caption
    ensures forall i :: 0 <= i < |links| ==> links[i].href == Anchor(d.quickLinks[i].caption)
  {
    seq(|d.quickLinks|, i requires 0 <= i < |d.quickLinks| =>
      QuickLink(d.quickLinks[i].caption, Anchor(d.quickLinks[i].caption)))
  }

  /** Two labels lead to the same anchor exactly when they differ at most in
      letter case; so the anchor is a section id only when that id is the
      lower-cased caption. */
  lemma AnchorsCollideOnlyByCase(a: string, b: string)
    ensures Anchor(a) == Anchor(b) <==> Lower(a) == Lower(b)
  {
    if Anchor(a) == Anchor(b) {
      assert Anchor(a)[1..] == Anchor(b)[1..];
    }
  }

  /** Following an anchor and lower-casing again changes nothing: anchors are already lower case. */
  lemma AnchorIsLowerCase(caption: string)
    ensures Lower(Anchor(caption)) == Anchor(caption)
  {
    var h := Anchor(caption);
    assert forall i :: 1 <= i < |h| ==> h[i] == Lower(caption)[i - 1];
  }

  datatype SocialLink = SocialLink(href: string, caption: string)

  const SocialLabels: seq<string> := ["LinkedIn", "GitHub", "Twitter", "Instagram", "Email"]

  datatype FooterError = MissingSocialLink(index: nat)

  datatype Outcome<T> = Rendered(value: T) | Crashed(error: FooterError)

  /** `socialLinks`: positions 0 to 4 of the data, labelled in a fixed order.
      With fewer than five entries the lookup of the first missing position
      yields `undefined` and reading its `href` throws while rendering. */
  function SocialLinks(d: FooterData): (r: Outcome<seq<SocialLink>>)
    ensures r.Crashed? <==> |d.socialLinks| < |SocialLabels|
    ensures r.Crashed? ==> r.error == MissingSocialLink(|d.socialLinks|)
    ensures r.Rendered? ==>
              && |r.value| == |SocialLabels|
              && forall i :: 0 <= i < |SocialLabels| ==>
                   r.value[i] == SocialLink(d.socialLinks[i].href, SocialLabels[i])
  {
    if |d.socialLinks| < |SocialLabels| then Crashed(MissingSocialLink(|d.socialLinks|))
    else Rendered(seq(|SocialLabels|, i requires 0 <= i < |SocialLabels| =>
                    SocialLink(d.socialLinks[i].href, SocialLabels[i])))
  }

  /** Entries past the fifth are ignored. */
  lemma ExtraSocialLinksIgnored(d: FooterData, extra: seq<SocialLinkData>)
    requires |d.socialLinks| >= |SocialLabels|
    ensures SocialLinks(d.(socialLinks := d.socialLinks + extra)) == SocialLinks(d)
  {
    var a := SocialLinks(d.(socialLinks := d.socialLinks + extra)).value;
    var b := SocialLinks(d).value;
    assert forall i :: 0 <= i < |SocialLabels| ==> a[i] == b[i];
    assert a == b;
  }

  datatype FooterView = FooterView(
    title: string,
    description: string,
    social: seq<SocialLink>,
    quick: seq<QuickLink>,
    copyright: string)

  /** The whole footer: it renders only when all five social links exist,
      and then shows the data's title, description and copyright verbatim. */
  function Render(d: FooterData): (r: Outcome<FooterView>)
    ensures r.Crashed? <==> |d.socialLinks| < |SocialLabels|
    ensures r.Rendered? ==>
              && r.value.copyright == d.copyright
              && r.value.title == d.title
              && r.value.description == d.description
              && r.value.quick == QuickLinks(d)
              && Rendered(r.value.social) == SocialLinks(d)
  {
    match SocialLinks(d)
    case Crashed(e) => Crashed(e)
    case Rendered(social) => Rendered(FooterView(d.title, d.description, social, QuickLinks(d), d.copyright))
  }
}

=== FILE: form_field.dfy ===
/**
 The contact form: four controlled fields, a simulated send that completes
 after 1500 ms and clears the form, and a "thank you" banner that a second
 timer hides 3000 ms later.

 The two `setTimeout` continuations are the events `SendCompleted` and
 `BannerExpired`; the state counts the timers of each kind that are
 scheduled and have not fired, so the model can show they never overlap.

 The browser validates the form before `handleSubmit` runs: every field is
 `required` and the e-mail field has `type="email"`, so a submit reaches the
 handler only when all four values are non-empty and the e-mail is a valid
 address in the sense of the HTML Living Standard (section 4.10.5.1.5).
 */
module FormField {
  import opened Common

  datatype Field = Name | Email | Subject | Message

  datatype FormData = FormData(name: string, email: string, subject: string, message: string)

  const EmptyForm: FormData := FormData("", "", "", "")

  function Get(d: FormData, f: Field): string
  {
    match f
    case Name => d.name
    case Email => d.email
    case Subject => d.subject
    case Message => d.message
  }

  /** An ASCII letter or digit. */
  predicate LetterOrDigit(c: char)
  {
    ('a' <= c <= 'z') || ('A' <= c <= 'Z') || ('0' <= c <= '9')
  }

  /** A character allowed before the `@` of a valid e-mail address. */
  predicate LocalChar(c: char)
  {
    LetterOrDigit(c) || c in ".!#$%&'*+/=?^_`{|}~-"
  }

  predicate LocalPart(l: string)
  {
    |l| > 0 && forall i :: 0 <= i < |l| ==> LocalChar(l[i])
  }

  /** One dot-separated label of the domain: 1 to 63 letters, digits and
      hyphens, starting and ending with a letter or digit. */
  predicate Label(l: string)
  {
    && 1 <= |l| <= 63
    && LetterOrDigit(l[0]) && LetterOrDigit(l[|l| - 1])
    && forall i :: 0 <= i < |l| ==> LetterOrDigit(l[i]) || l[i] == '-'
  }

  /** One or more labels joined by single dots. */
  predicate Domain(d: string)
    decreases |d|
  {
    var k := IndexOf(d, '.');
    Label(d[..k]) && (k < |d| ==> Domain(d[k + 1..]))
  }

  /** A valid e-mail address: a local part, one `@`, and a domain. */
  predicate ValidEmail(e: string)
  {
    var k := IndexOf(e, '@');
    k < |e| && LocalPart(e[..k]) && Domain(e[k + 1..])
  }

  /** The values pass the form's constraints, so the browser lets the submit through. */
  predicate Submittable(d: FormData)
  {
    d.name != "" && ValidEmail(d.email) && d.subject != "" && d.message != ""
  }

  /** The address grammar, rule by rule: an address is a local part and a
      domain around one `@`, and a domain is a label, optionally followed by
      a dot and a further domain. */
  lemma {:induction false} EmailGrammar(local: string, first: string, rest: string)
    requires LocalPart(local) && Label(first)
    ensures ValidEmail(local + "@" + rest) <==> Domain(rest)
    ensures Domain(first)
    ensures Domain(first + "." + rest) <==> Domain(rest)
  {
    AddressSplit(local, rest);
    assert IndexOf(first, '.') == |first|;
    assert first[..|first|] == first;
    var d := first + "." + rest;
    assert d == first + ("." + rest);
    IndexOfAfter(first, "." + rest, '.');
    assert d[..|first|] == first && d[|first| + 1..] == rest;
  }

  /** Text without an `@`, or with nothing before its first `@`, is not an address. */
  lemma NoLocalPartNoAddress(e: string)
    requires (forall i :: 0 <= i < |e| ==> e[i] != '@') || (|e| > 0 && e[0] == '@')
    ensures !ValidEmail(e)
  {
    assert |e| > 0 && e[0] == '@' ==> e[..IndexOf(e, '@')] == [];
  }

  /** A local part at a two-label domain is an address. */
  lemma TwoLabelAddress(local: string, first: string, second: string)
    requires LocalPart(local) && Label(first) && Label(second)
    ensures ValidEmail(local + "@" + (first + "." + second))
  {
    EmailGrammar(local, first, second);
    EmailGrammar(local, second, "");
    EmailGrammar(local, second, first + "." + second);
  }

  /** Two dots in a row anywhere in a domain leave an empty label between them. */
  lemma {:induction false} DoubledDotNotDomain(d: string, i: nat)
    requires i + 1 < |d| && d[i] == '.' && d[i + 1] == '.'
    ensures !Domain(d)
    decreases |d|
  {
    var k := IndexOf(d, '.');
    assert k <= i;
    var rest := d[k + 1..];
    if k == i {
      assert IndexOf(rest, '.') == 0;
      assert !Label(rest[..0]);
    } else {
      assert rest[i - k - 1] == '.' && rest[i - k] == '.';
      DoubledDotNotDomain(rest, i - k - 1);
    }
  }

  /** A domain never ends with a dot: the last label would be empty. */
  lemma {:induction false} TrailingDotNotDomain(d: string)
    requires |d| > 0 && d[|d| - 1] == '.'
    ensures !Domain(d)
    decreases |d|
  {
    var k := IndexOf(d, '.');
    var rest := d[k + 1..];
    if k == |d| - 1 {
      assert rest == [];
      assert !Label(rest[..IndexOf(rest, '.')]);
    } else {
      assert rest[|rest| - 1] == '.';
      TrailingDotNotDomain(rest);
    }
  }

  /** A domain never starts with a hyphen or a dot. */
  lemma LeadingHyphenOrDotNotDomain(d: string)
    requires |d| > 0 && (d[0] == '-' || d[0] == '.')
    ensures !Domain(d)
  {
    var k := IndexOf(d, '.');
    if k > 0 {
      assert d[..k][0] == d[0];
    } else {
      assert d[..k] == [];
    }
  }

  /** After a local part, the rest of the value is an address exactly when it is a domain. */
  lemma AddressSplit(local: string, rest: string)
    requires LocalPart(local)
    ensures ValidEmail(local + "@" + rest) <==> Domain(rest)
  {
    var e := local + "@" + rest;
    assert e == local + ("@" + rest);
    IndexOfAfter(local, "@" + rest, '@');
    assert e[..|local|] == local && e[|local| + 1..] == rest;
  }

  /** A domain that starts with a hyphen or a dot, ends with a dot, or holds
      two dots in a row anywhere makes the value invalid. */
  lemma MalformedDomains(local: string, domain: string)
    requires LocalPart(local)
    ensures |domain| > 0 && (domain[0] == '-' || domain[0] == '.') ==> !ValidEmail(local + "@" + domain)
    ensures |domain| > 0 && domain[|domain| - 1] == '.' ==> !ValidEmail(local + "@" + domain)
    ensures forall i :: 0 <= i < |domain| - 1 && domain[i] == '.' && domain[i + 1] == '.' ==>
              !ValidEmail(local + "@" + domain)
  {
    AddressSplit(local, domain);
    if |domain| > 0 && (domain[0] == '-' || domain[0] == '.') {
      LeadingHyphenOrDotNotDomain(domain);
    }
    if |domain| > 0 && domain[|domain| - 1] == '.' {
      TrailingDotNotDomain(domain);
    }
    forall i | 0 <= i < |domain| - 1 && domain[i] == '.' && domain[i + 1] == '.'
      ensures !ValidEmail(local + "@" + domain)
    {
      DoubledDotNotDomain(domain, i);
    }
  }

  /** The placeholder address is accepted. */
  lemma PlaceholderAddressValid()
    ensures ValidEmail("john@example.com")
  {
    var e := "john" + "@" + ("example" + "." + "com");
    assert e == "john@example.com" by {
      forall i | 0 <= i < |e| ensures e[i] == "john@example.com"[i] { }
    }
    TwoLabelAddress("john", "example", "com");
  }

  /** The placeholder with its domain's dot doubled is rejected. */
  lemma DoubledDotInvalid()
    ensures !ValidEmail("john@example..com")
  {
    var d := "example" + "." + ("." + "com");
    var e := "john" + "@" + d;
    assert e == "john@example..com" by {
      forall i | 0 <= i < |e| ensures e[i] == "john@example..com"[i] { }
    }
    assert d[7] == '.' && d[8] == '.';
    DoubledDotNotDomain(d, 7);
    AddressSplit("john", d);
  }

  datatype FormState = FormState(
    data: FormData,
    isSubmitting: bool,
    submitted: bool,
    sendTimers: nat,
    bannerTimers: nat)

  function Initial(): (s: FormState)
    ensures forall f :: Get(s.data, f) == ""
    ensures !s.isSubmitting && !s.submitted
    ensures Valid(s)
  {
    FormState(EmptyForm, false, false, 0, 0)
  }

  /** `handleChange`: the edited field takes the new value; the other fields
      and both flags keep theirs. */
  function HandleChange(s: FormState, f: Field, value: string): (r: FormState)
    ensures Get(r.data, f) == value
    ensures forall g :: g != f ==> Get(r.data, g) == Get(s.data, g)
    ensures r.isSubmitting == s.isSubmitting && r.submitted == s.submitted
    ensures r.sendTimers == s.sendTimers && r.bannerTimers == s.bannerTimers
  {
    var d := s.data;
    var d' := match f
      case Name => d.(name := value)
      case Email => d.(email := value)
      case Subject => d.(subject := value)
      case Message => d.(message := value);
    s.(data := d')
  }

  /** `handleSubmit`: the send starts and its completion timer is scheduled;
      the entered values stay as they are. */
  function HandleSubmit(s: FormState): (r: FormState)
    ensures r.isSubmitting
    ensures r.data == s.data && r.submitted == s.submitted
    ensures r.sendTimers == s.sendTimers + 1 && r.bannerTimers == s.bannerTimers
  {
    s.(isSubmitting := true, sendTimers := s.sendTimers + 1)
  }

  /** The 1500 ms timer: the send completes, the form is cleared, the banner
      is shown and the banner timer is scheduled. */
  function CompleteSend(s: FormState): (r: FormState)
    requires s.sendTimers > 0
    ensures !r.isSubmitting && r.submitted
    ensures forall f :: Get(r.data, f) == ""
    ensures r.sendTimers == s.sendTimers - 1 && r.bannerTimers == s.bannerTimers + 1
  {
    FormState(EmptyForm, false, true, s.sendTimers - 1, s.bannerTimers + 1)
  }

  /** The 3000 ms timer: the banner is hidden; nothing else changes. */
  function ExpireBanner(s: FormState): (r: FormState)
    requires s.bannerTimers > 0
    ensures !r.submitted
    ensures r.data == s.data && r.isSubmitting == s.isSubmitting
    ensures r.sendTimers == s.sendTimers && r.bannerTimers == s.bannerTimers - 1
  {
    s.(submitted := false, bannerTimers := s.bannerTimers - 1)
  }

  /** What the component renders. */
  datatype View =
    | ThankYouBanner
    | Form(fields: FormData, submitDisabled: bool, buttonLabel: string)

  function Render(s: FormState): (v: View)
    ensures v.ThankYouBanner? <==> s.submitted
    ensures v.Form? ==> v.fields == s.data
    ensures v.Form? ==> (v.submitDisabled <==> s.isSubmitting)
    ensures v.Form? ==> v.buttonLabel == (if s.isSubmitting then "Sending..." else "Send Message")
  {
    if s.submitted then ThankYouBanner
    else Form(s.data, s.isSubmitting, if s.isSubmitting then "Sending..." else "Send Message")
  }

  datatype FormEvent = Changed(field: Field, value: string) | Submitted | SendCompleted | BannerExpired

  /** Whether the rendered page can deliver the event: edits and submits need
      the form on screen, a submit needs the button enabled and values that
      pass validation, and a timer event needs a timer of its kind outstanding. */
  predicate Deliverable(s: FormState, e: FormEvent)
  {
    match e
    case Changed(_, _) => !s.submitted
    case Submitted => !s.submitted && !s.isSubmitting && Submittable(s.data)
    case SendCompleted => s.sendTimers > 0
    case BannerExpired => s.bannerTimers > 0
  }

  /** Delivers the event to its handler; an event the page cannot deliver changes nothing. */
  function Step(s: FormState, e: FormEvent): (r: FormState)
    ensures !Deliverable(s, e) ==> r == s
  {
    if !Deliverable(s, e) then s
    else match e
      case Changed(f, v) => HandleChange(s, f, v)
      case Submitted => HandleSubmit(s)
      case SendCompleted => CompleteSend(s)
      case BannerExpired => ExpireBanner(s)
  }

  function Run(s: FormState, events: seq<FormEvent>): FormState
    decreases |events|
  {
    if |events| == 0 then s else Run(Step(s, events[0]), events[1..])
  }

  /** The flags mirror the outstanding timers: a send is in progress exactly
      while its completion timer is pending, the banner shows exactly while
      its timer is pending, and the two phases never overlap. */
  ghost predicate Valid(s: FormState)
  {
    && s.sendTimers == (if s.isSubmitting then 1 else 0)
    && s.bannerTimers == (if s.submitted then 1 else 0)
    && !(s.isSubmitting && s.submitted)
  }

  lemma StepValid(s: FormState, e: FormEvent)
    requires Valid(s)
    ensures Valid(Step(s, e))
  {
  }

  lemma {:induction false} RunValid(s: FormState, events: seq<FormEvent>)
    requires Valid(s)
    ensures Valid(Run(s, events))
    ensures Run(s, events).sendTimers <= 1 && Run(s, events).bannerTimers <= 1
    decreases |events|
  {
    if |events| > 0 {
      StepValid(s, events[0]);
      RunValid(Step(s, events[0]), events[1..]);
    }
  }

  /** A submit starts a send exactly when the form is on screen, idle, and
      its values pass validation; otherwise it changes nothing. In
      particular the initial, empty form cannot be sent. */
  lemma SubmitAcceptedIff(s: FormState)
    ensures Step(s, Submitted) != s <==> !s.submitted && !s.isSubmitting && Submittable(s.data)
    ensures Step(s, Submitted) != s ==> Step(s, Submitted).isSubmitting
    ensures Step(Initial(), Submitted) == Initial()
  {
    assert !ValidEmail("");
  }

  /** Whatever valid values were typed, submitting and letting both timers
      fire brings the component back to its initial state. */
  lemma SubmitCycleResets(s: FormState)
    requires Valid(s) && !s.isSubmitting && !s.submitted && Submittable(s.data)
    ensures Step(Step(Step(s, Submitted), SendCompleted), BannerExpired) == Initial()
  {
  }

  /** Edits to two different fields commute, and a later edit of the same
      field overrides an earlier one. */
  lemma ChangesCommute(s: FormState, f: Field, v: string, g: Field, w: string)
    ensures f != g ==> HandleChange(HandleChange(s, f, v), g, w) == HandleChange(HandleChange(s, g, w), f, v)
    ensures HandleChange(HandleChange(s, f, v), f, w) == HandleChange(s, f, w)
  {
  }
}

=== FILE: navbar.dfy ===
/**
 The fixed navigation bar: the scrolled look, the mobile menu, the two
 theme-toggle buttons and the staggered entrance of the desktop links.
 */
module Navbar {
  import Theme

  datatype NavLink = NavLink(name: string, href: string)

  const NavLinks: seq<NavLink> := [
    NavLink("About", "#about"),
    NavLink("Experience", "#experience"),
    NavLink("Skills", "#skills"),
    NavLink("Projects", "#projects"),
    NavLink("Contact", "#contact")
  ]

  /** Vertical scroll offset, in CSS pixels, past which the bar turns solid. */
  const ScrollThreshold: real := 10.0

  datatype NavState = NavState(scrolled: bool, mobileMenuOpen: bool)

  /** Neither scrolled nor with the menu open. */
  const InitialNav: NavState := NavState(false, false)

  /** `handleScroll`: the bar is "scrolled" exactly when the page is more than 10 px down. */
  function HandleScroll(s: NavState, scrollY: real): (r: NavState)
    ensures r.scrolled <==> scrollY > ScrollThreshold
    ensures r.mobileMenuOpen == s.mobileMenuOpen
  {
    s.(scrolled := scrollY > ScrollThreshold)
  }

  /** `toggleMobileMenu`: opens a closed menu and closes an open one. */
  function ToggleMobileMenu(s: NavState): (r: NavState)
    ensures r.mobileMenuOpen != s.mobileMenuOpen
    ensures r.scrolled == s.scrolled
  {
    s.(mobileMenuOpen := !s.mobileMenuOpen)
  }

  /** Clicking a link in the mobile menu closes it. */
  function MobileLinkClicked(s: NavState): (r: NavState)
    ensures !r.mobileMenuOpen
    ensures r.scrolled == s.scrolled
  {
    s.(mobileMenuOpen := false)
  }

  lemma ToggleMenuTwiceIsIdentity(s: NavState)
    ensures ToggleMobileMenu(ToggleMobileMenu(s)) == s
  {
  }

  /** Only the latest scroll position matters. */
  lemma LastScrollWins(s: NavState, y1: real, y2: real)
    ensures HandleScroll(HandleScroll(s, y1), y2) == HandleScroll(s, y2)
  {
  }

  datatype Icon = Sun | Moon

  /** The theme button shows the sun in the dark theme (offering light) and the moon otherwise. */
  function ThemeIcon(theme: Theme.ThemeName): (i: Icon)
    ensures i == Sun <==> theme == Theme.Dark
  {
    if theme == Theme.Dark then Sun else Moon
  }

  /** What the bar renders for a navigation state and a theme context. */
  datatype NavView = NavView(
    solidBackground: bool,
    desktopToggleDisabled: bool,
    mobileToggleDisabled: bool,
    icon: Icon,
    mobileMenuShown: bool)

  function Render(s: NavState, t: Theme.ThemeState): (v: NavView)
    ensures v.solidBackground == s.scrolled
    ensures v.desktopToggleDisabled <==> t.isTransitioning
    ensures v.mobileToggleDisabled == v.desktopToggleDisabled
    ensures v.icon == ThemeIcon(t.theme)
    ensures v.mobileMenuShown <==> s.mobileMenuOpen
  {
    NavView(s.scrolled, t.isTransitioning, t.isTransitioning, ThemeIcon(t.theme), s.mobileMenuOpen)
  }

  /** On mount the bar is transparent with the menu closed, and opening the
      menu and following a link brings it back to that state. */
  lemma InitialView(t: Theme.ThemeState)
    ensures !Render(InitialNav, t).solidBackground && !Render(InitialNav, t).mobileMenuShown
    ensures MobileLinkClicked(ToggleMobileMenu(InitialNav)) == InitialNav
  {
  }

  /** A click on a theme button reaches the provider only when the button is
      enabled, and then it is always accepted: for a light or dark theme the
      icon flips and both buttons become disabled. */
  lemma EnabledToggleIsAccepted(s: NavState, t: Theme.ThemeState)
    requires !Render(s, t).desktopToggleDisabled
    requires t.theme == Theme.Light || t.theme == Theme.Dark
    ensures var after := Render(s, Theme.Toggle(t));
            && after.icon != Render(s, t).icon
            && after.desktopToggleDisabled && after.mobileToggleDisabled
  {
  }

  /** Entrance delay of desktop link `index`, in seconds: the first link
      enters at once and each further one a tenth of a second later. */
  function LinkDelay(index: nat): (d: real)
    ensures index == 0 ==> d == 0.0
    ensures index > 0 ==> d == LinkDelay(index - 1) + 0.1
  {
    index as real * 0.1
  }

  /** The toggle button's entrance delay, which follows all the links. */
  function ToggleDelay(): (d: real)
    ensures forall i :: 0 <= i < |NavLinks| ==> LinkDelay(i) < d
  {
    |NavLinks| as real * 0.1
  }

  /** The inline `animationDelay` of mobile menu link `index`, in seconds:
      half the desktop value. The mobile links carry no animation class, so
      the value delays nothing; only the menu container slides in. */
  function MobileLinkDelay(index: nat): (d: real)
    ensures 2.0 * d == LinkDelay(index)
  {
    index as real * 0.05
  }
}

=== FILE: projects.dfy ===
/**
 The projects section: each project of the site data becomes a card
 carrying its name and repository link, a shared description and shared
 tags; a card shows its image and live link only when given non-empty
 ones, and an overlay while the pointer is over it.
 */
module Projects {
  import opened Common

  /** A project of the site data. */
  datatype ProjectData = ProjectData(
    projectName: string,
    codeLink: string,
    description: string,
    image: string,
    category: string,
    demoLink: Option<string>,
    technologies: seq<string>)

  /** The props of a card; `None` is a prop that was not passed. */
  datatype CardProps = CardProps(
    title: string,
    description: Option<string>,
    imageSrc: Option<string>,
    tags: Option<seq<string>>,
    githubLink: string,
    liveLink: Option<string>,
    delay: Option<real>)

  const SharedDescription: string := "A project built with modern web technologies."
  const SharedTags: seq<string> := ["React", "JavaScript", "Web Development"]

  /** The card's own defaults for props that were not passed. */
  const DefaultDescription: string := "A project built with modern web technologies."
  const DefaultTags: seq<string> := ["Web", "Development"]

  /** The section's mapping from data to card props: the card at position
      `index` of the grid. */
  function ToCardProps(p: ProjectData, index: nat): CardProps
  {
    CardProps(p.projectName, Some(SharedDescription), None, Some(SharedTags), p.codeLink, None, Some(index as real * 0.1))
  }

  function CardList(projects: seq<ProjectData>): (cards: seq<CardProps>)
    ensures |cards| == |projects|
    ensures forall i :: 0 <= i < |cards| ==>
              cards[i].title == projects[i].projectName && cards[i].githubLink == projects[i].codeLink
    ensures forall i :: 0 <= i < |cards| ==>
              cards[i].description == Some(SharedDescription) && cards[i].tags == Some(SharedTags)
    ensures forall i :: 0 <= i < |cards| ==> cards[i].imageSrc == None && cards[i].liveLink == None
    ensures forall i :: 0 <= i < |cards| ==> cards[i].delay == Some(i as real * 0.1)
  {
    seq(|projects|, i requires 0 <= i < |projects| => ToCardProps(projects[i], i))
  }

  /** Only the name and the repository link of a project reach its card:
      projects that agree on those two give the same cards, whatever their
      descriptions, images, demo links or technologies. */
  lemma CardsReadOnlyNameAndLink(a: seq<ProjectData>, b: seq<ProjectData>)
    requires |a| == |b|
    requires forall i :: 0 <= i < |a| ==> a[i].projectName == b[i].projectName && a[i].codeLink == b[i].codeLink
    ensures CardList(a) == CardList(b)
  {
  }

  /** A string prop is rendered only when it is truthy: present and non-empty. */
  predicate Truthy(o: Option<string>)
  {
    o.Some? && o.value != ""
  }

  datatype ImageArea = Picture(src: string, alt: string) | NoImagePlaceholder

  datatype CardView = CardView(
    title: string,
    image: ImageArea,
    overlayOpacity: nat,
    overlayText: string,
    tags: seq<string>,
    githubHref: string,
    liveHref: Option<string>,
    detailsHref: string,
    delay: real)

  /** `ProjectCard` for its props and hover state. */
  function RenderCard(p: CardProps, isHovered: bool): (v: CardView)
    ensures v.image.Picture? <==> Truthy(p.imageSrc)
    ensures v.image.Picture? ==> v.image.src == p.imageSrc.value && v.image.alt == p.title
    ensures v.liveHref.Some? <==> Truthy(p.liveLink)
    ensures v.liveHref.Some? ==> v.liveHref == p.liveLink
    ensures v.overlayOpacity == (if isHovered then 100 else 0)
    ensures v.githubHref == p.githubLink && v.detailsHref == p.githubLink && v.title == p.title
    ensures v.overlayText == (if p.description.Some? then p.description.value else DefaultDescription)
    ensures v.tags == (if p.tags.Some? then p.tags.value else DefaultTags)
  {
    CardView(
      p.title,
      if Truthy(p.imageSrc) then Picture(p.imageSrc.value, p.title) else NoImagePlaceholder,
      if isHovered then 100 else 0,
      match p.description case Some(d) => d case None => DefaultDescription,
      match p.tags case Some(t) => t case None => DefaultTags,
      p.githubLink,
      if Truthy(p.liveLink) then p.liveLink else None,
      p.githubLink,
      match p.delay case Some(d) => d case None => 0.0)
  }

  /** Every card of the section shows the image placeholder, no live link,
      the shared description and tags, and links twice to the repository. */
  lemma SectionCardsAreUniform(projects: seq<ProjectData>, i: nat, hovered: bool)
    requires i < |projects|
    ensures var v := RenderCard(CardList(projects)[i], hovered);
            && v.image == NoImagePlaceholder
            && v.liveHref == None
            && v.overlayText == SharedDescription
            && v.tags == SharedTags
            && v.githubHref == projects[i].codeLink
            && v.title == projects[i].projectName
            && v.delay == i as real * 0.1
  {
  }

  datatype HoverEvent = MouseEnter | MouseLeave

  function Hover(isHovered: bool, e: HoverEvent): (r: bool)
    ensures r <==> e == MouseEnter
  {
    e == MouseEnter
  }

  /** The overlay is opaque exactly after the pointer entered the card and before it left. */
  lemma OverlayFollowsPointer(p: CardProps, isHovered: bool, e: HoverEvent)
    ensures RenderCard(p, Hover(isHovered, e)).overlayOpacity == 100 <==> e == MouseEnter
    ensures RenderCard(p, Hover(isHovered, e)).overlayOpacity == 0 <==> e == MouseLeave
  {
  }
}

=== FILE: skills.dfy ===
/**
 The skills section: the profile's skill list is split into six declared
 categories by fixed whitelists, categories left empty are dropped, and
 categories and badges get staggered entrance delays.
 */
module Skills {
  import opened Common

  datatype Category = Category(title: string, whitelist: seq<string>)

  const Frontend: Category := Category("Frontend", ["HTML", "CSS", "JavaScript", "React", "Tailwind", "Bootstrap"])
  const Backend: Category := Category("Backend", ["Node.js", "Express.js", "MongoDB", "Django REST Framework"])
  const Languages: Category := Category("Programming Languages", ["JavaScript", "TypeScript", "Python", "Java (SE)", "C"])
  const Database: Category := Category("Database", ["MongoDB", "MySQL", "PostgreSQL"])
  const Mobile: Category := Category("Mobile Development", ["React Native", "Swift"])
  const VersionControl: Category := Category("Version Control", ["Git", "GitHub"])

  /** The categories in the order the section declares them. */
  const Declared: seq<Category> := [Frontend, Backend, Languages, Database, Mobile, VersionControl]

  /** A category as shown: its title and the skills that passed its whitelist. */
  datatype CategoryView = CategoryView(title: string, skills: seq<string>)

  /** `allSkills.filter(skill => whitelist.includes(skill))`. */
  function CategorySkills(allSkills: seq<string>, c: Category): (r: seq<string>)
    ensures forall i :: 0 <= i < |r| ==> r[i] in allSkills && r[i] in c.whitelist
    ensures forall i :: 0 <= i < |allSkills| && allSkills[i] in c.whitelist ==> allSkills[i] in r
  {
    Filter(s => s in c.whitelist, allSkills)
  }

  /** A category keeps the profile's order and repetitions: a whitelisted
      skill appears as often as in the profile, any other skill never, and
      the category of a concatenated profile is the concatenation of the
      categories of its parts. */
  lemma CategoryKeepsOrderAndRepeats(a: seq<string>, b: seq<string>, c: Category, skill: string)
    ensures CategorySkills(a + b, c) == CategorySkills(a, c) + CategorySkills(b, c)
    ensures multiset(CategorySkills(a, c))[skill] == if skill in c.whitelist then multiset(a)[skill] else 0
  {
    FilterAppend(s => s in c.whitelist, a, b);
    FilterMultiplicity(s => s in c.whitelist, a, skill);
  }

  /** Each category of `cats`, in order, with the profile skills that pass its whitelist. */
  function Views(allSkills: seq<string>, cats: seq<Category>): (vs: seq<CategoryView>)
    ensures |vs| == |cats|
    ensures forall i :: 0 <= i < |cats| ==>
              vs[i].title == cats[i].title && vs[i].skills == CategorySkills(allSkills, cats[i])
  {
    seq(|cats|, i requires 0 <= i < |cats| => CategoryView(cats[i].title, CategorySkills(allSkills, cats[i])))
  }

  /** A category that kept at least one skill. */
  predicate NonEmpty(v: CategoryView)
  {
    |v.skills| > 0
  }

  /** The categories of `cats` that kept at least one skill, in order. */
  function Shown(allSkills: seq<string>, cats: seq<Category>): seq<CategoryView>
  {
    Filter(NonEmpty, Views(allSkills, cats))
  }

  /** `skillCategories`: every declared category, filtered, with the empty ones dropped. */
  function SkillCategories(allSkills: seq<string>): (vs: seq<CategoryView>)
    ensures |vs| <= |Declared|
    ensures forall i :: 0 <= i < |vs| ==> |vs[i].skills| > 0
    ensures forall i :: 0 <= i < |vs| ==> vs[i] in Views(allSkills, Declared)
  {
    Shown(allSkills, Declared)
  }

  /** A declared category is shown, with its filtered skills, exactly when
      the profile holds at least one of its whitelisted skills. */
  lemma CategoryShownIff(allSkills: seq<string>, k: nat)
    requires k < |Declared|
    ensures CategoryView(Declared[k].title, CategorySkills(allSkills, Declared[k])) in SkillCategories(allSkills)
            <==> exists i :: 0 <= i < |allSkills| && allSkills[i] in Declared[k].whitelist
  {
    var v := CategoryView(Declared[k].title, CategorySkills(allSkills, Declared[k]));
    var all := Views(allSkills, Declared);
    assert all[k] == v;
    if exists i :: 0 <= i < |allSkills| && allSkills[i] in Declared[k].whitelist {
      var i :| 0 <= i < |allSkills| && allSkills[i] in Declared[k].whitelist;
      assert allSkills[i] in v.skills;
    }
    if v in SkillCategories(allSkills) {
      assert |v.skills| > 0;
      assert v.skills[0] in allSkills;
    }
  }

  /** Dropping the empty categories keeps the declared order: the categories
      shown for a list split in two are those shown for the first part
      followed by those shown for the second. */
  lemma CategoriesKeepDeclaredOrder(allSkills: seq<string>, a: seq<Category>, b: seq<Category>)
    ensures Shown(allSkills, a + b) == Shown(allSkills, a) + Shown(allSkills, b)
  {
    var l, r := Views(allSkills, a + b), Views(allSkills, a) + Views(allSkills, b);
    forall i | 0 <= i < |l|
      ensures l[i] == r[i]
    {
      if i < |a| {
        assert (a + b)[i] == a[i];
      } else {
        assert (a + b)[i] == b[i - |a|];
      }
    }
    assert l == r;
    FilterAppend(NonEmpty, Views(allSkills, a), Views(allSkills, b));
  }

  /** Whitelists overlap: JavaScript is both a frontend skill and a
      programming language, MongoDB both a backend and a database skill. */
  lemma SharedSkillsAppearTwice(allSkills: seq<string>)
    ensures "JavaScript" in allSkills ==>
              "JavaScript" in CategorySkills(allSkills, Frontend) && "JavaScript" in CategorySkills(allSkills, Languages)
    ensures "MongoDB" in allSkills ==>
              "MongoDB" in CategorySkills(allSkills, Backend) && "MongoDB" in CategorySkills(allSkills, Database)
  {
  }

  /** A rendered badge with its transition delay in milliseconds. */
  datatype Badge = Badge(skill: string, delayMs: int)

  /** A rendered category card with its entrance delay in seconds. */
  datatype CategoryCard = CategoryCard(title: string, badges: seq<Badge>, delay: real)

  function Badges(skills: seq<string>): (bs: seq<Badge>)
    ensures |bs| == |skills|
    ensures forall j :: 0 <= j < |bs| ==> bs[j].skill == skills[j] && bs[j].delayMs == 30 * j
  {
    seq(|skills|, j requires 0 <= j < |skills| => Badge(skills[j], j * 30))
  }

  function Cards(allSkills: seq<string>): (cs: seq<CategoryCard>)
    ensures var vs := SkillCategories(allSkills);
            && |cs| == |vs|
            && forall i :: 0 <= i < |cs| ==>
                 && cs[i].title == vs[i].title
                 && |cs[i].badges| == |vs[i].skills|
                 && (forall j :: 0 <= j < |cs[i].badges| ==>
                       cs[i].badges[j].skill == vs[i].skills[j] && cs[i].badges[j].delayMs == 30 * j)
                 && cs[i].delay == i as real * 0.1
  {
    var vs := SkillCategories(allSkills);
    seq(|vs|, i requires 0 <= i < |vs| => CategoryCard(vs[i].title, Badges(vs[i].skills), i as real * 0.1))
  }
}

=== FILE: text_animation.dfy ===
/**
 The animated text component: the typewriter machine driven by its timers,
 the pressure effect's hover state and distance classification, the
 per-letter renderers of the pressure, wave and glow effects, and the
 dispatch on the effect name.

 Each `setTimeout` continuation is an explicit event. Only the text, the
 effect and the loop flag influence behaviour; `speed` and `delay` only
 choose when the events happen.
 */
module TextAnimation {
  import opened Common

  datatype Effect = Pressure | Typewriter | Wave | Glow | Unrecognised

  /** The props a caller may omit. */
  const DefaultEffect: Effect := Pressure
  const DefaultLoop: bool := false

  // ---------------------------------------------------------------------
  // Typewriter
  // ---------------------------------------------------------------------

  /** The typewriter's two state cells: the text shown so far and the index
      of the next character to type. */
  datatype Typed = Typed(displayed: string, index: nat)

  const Blank: Typed := Typed("", 0)

  /** What the typewriter shows is always the prefix of the text up to its index. */
  ghost predicate Typing(text: string, s: Typed)
  {
    s.index <= |text| && s.displayed == text[..s.index]
  }

  /** The typewriter's pending timer fires. While characters remain it
      appends the next one; at the end it restarts when looping and is idle
      otherwise (no timer is scheduled then, so nothing changes). Under any
      other effect no typewriter timer exists. */
  function Tick(text: string, effect: Effect, loop: bool, s: Typed): (r: Typed)
    ensures effect != Typewriter ==> r == s
    ensures effect == Typewriter && s.index < |text| ==>
              r.index == s.index + 1 && |r.displayed| == |s.displayed| + 1 && r.displayed[..|s.displayed|] == s.displayed
              && r.displayed[|s.displayed|] == text[s.index]
    ensures effect == Typewriter && s.index >= |text| ==> r == (if loop then Blank else s)
    ensures Typing(text, s) ==> Typing(text, r)
  {
    if effect != Typewriter then s
    else if s.index < |text| then Typed(s.displayed + [text[s.index]], s.index + 1)
    else if loop then Blank
    else s
  }

  /** The mount-delay timer fires: the typewriter starts over. */
  function Restart(effect: Effect, s: Typed): (r: Typed)
    ensures effect == Typewriter ==> r == Blank
    ensures effect != Typewriter ==> r == s
  {
    if effect == Typewriter then Blank else s
  }

  /** `n` consecutive firings of the typewriter timer. */
  function Ticks(text: string, effect: Effect, loop: bool, s: Typed, n: nat): Typed
  {
    if n == 0 then s else Tick(text, effect, loop, Ticks(text, effect, loop, s, n - 1))
  }

  /** After `n` ticks from the blank state the first `n` characters are shown. */
  lemma {:induction false} TicksTypePrefix(text: string, loop: bool, n: nat)
    requires n <= |text|
    ensures Ticks(text, Typewriter, loop, Blank, n) == Typed(text[..n], n)
  {
    if n > 0 {
      TicksTypePrefix(text, loop, n - 1);
      var prev := Typed(text[..n - 1], n - 1);
      assert Ticks(text, Typewriter, loop, Blank, n) == Tick(text, Typewriter, loop, prev);
      assert Tick(text, Typewriter, loop, prev) == Typed(text[..n - 1] + [text[n - 1]], n);
      assert text[..n - 1] + [text[n - 1]] == text[..n];
    }
  }

  /** Without looping the typewriter stops at the full text: further ticks change nothing. */
  lemma {:induction false} FinishedStaysFinished(text: string, s: Typed, m: nat)
    requires s.index >= |text|
    ensures Ticks(text, Typewriter, false, s, m) == s
  {
    if m > 0 {
      FinishedStaysFinished(text, s, m - 1);
    }
  }

  /** Without looping, once enough ticks have fired the whole text is shown for good. */
  lemma TypesWholeText(text: string, m: nat)
    requires m >= |text|
    ensures Ticks(text, Typewriter, false, Blank, m) == Typed(text, |text|)
  {
    TicksTypePrefix(text, false, |text|);
    assert text[..|text|] == text;
    TicksAfter(text, Typewriter, false, Blank, |text|, m - |text|);
    FinishedStaysFinished(text, Typed(text, |text|), m - |text|);
  }

  lemma {:induction false} TicksAfter(text: string, effect: Effect, loop: bool, s: Typed, n: nat, m: nat)
    ensures Ticks(text, effect, loop, s, n + m) == Ticks(text, effect, loop, Ticks(text, effect, loop, s, n), m)
  {
    if m > 0 {
      TicksAfter(text, effect, loop, s, n, m - 1);
    }
  }

  /** With looping the typewriter is periodic: the text is typed in |text|
      ticks and the restart tick brings it back to the blank state. */
  lemma LoopPeriod(text: string)
    ensures Ticks(text, Typewriter, true, Blank, |text| + 1) == Blank
  {
    TicksTypePrefix(text, true, |text|);
  }

  datatype TypewriterEvent = TimerFired | MountDelayElapsed

  function TypewriterStep(text: string, effect: Effect, loop: bool, s: Typed, e: TypewriterEvent): Typed
  {
    match e
    case TimerFired => Tick(text, effect, loop, s)
    case MountDelayElapsed => Restart(effect, s)
  }

  function TypewriterRun(text: string, effect: Effect, loop: bool, s: Typed, events: seq<TypewriterEvent>): Typed
    decreases |events|
  {
    if |events| == 0 then s
    else TypewriterRun(text, effect, loop, TypewriterStep(text, effect, loop, s, events[0]), events[1..])
  }

  /** Whatever order the two timers fire in, the displayed text is a prefix of the text. */
  lemma {:induction false} TypewriterRunTyping(text: string, effect: Effect, loop: bool, s: Typed, events: seq<TypewriterEvent>)
    requires Typing(text, s)
    ensures Typing(text, TypewriterRun(text, effect, loop, s, events))
    decreases |events|
  {
    if |events| > 0 {
      TypewriterRunTyping(text, effect, loop, TypewriterStep(text, effect, loop, s, events[0]), events[1..]);
    }
  }

  // ---------------------------------------------------------------------
  // Pressure effect
  // ---------------------------------------------------------------------

  /** Mouse enters letter `index`: recorded only under the pressure effect. */
  function LetterHover(effect: Effect, hovered: Option<nat>, index: nat): (r: Option<nat>)
    ensures effect == Pressure ==> r == Some(index)
    ensures effect != Pressure ==> r == hovered
  {
    if effect == Pressure then Some(index) else hovered
  }

  /** Mouse leaves a letter: cleared only under the pressure effect. */
  function LetterLeave(effect: Effect, hovered: Option<nat>): (r: Option<nat>)
    ensures effect == Pressure ==> r == None
    ensures effect != Pressure ==> r == hovered
  {
    if effect == Pressure then None else hovered
  }

  function Distance(a: int, b: int): nat
  {
    if a >= b then a - b else b - a
  }

  /** The four style buckets of the pressure effect. */
  datatype Emphasis = Pressed | Near | Neighbour | NoEmphasis

  /** The bucket of letter `index` given the hovered letter. */
  function PressureEmphasis(hovered: Option<nat>, index: nat): (e: Emphasis)
    ensures hovered == None ==> e == NoEmphasis
    ensures hovered.Some? ==>
              && (e == Pressed <==> hovered.value == index)
              && (e == Near <==> Distance(hovered.value, index) == 1)
              && (e == Neighbour <==> Distance(hovered.value, index) == 2)
              && (e == NoEmphasis <==> Distance(hovered.value, index) > 2)
  {
    match hovered
    case None => NoEmphasis
    case Some(h) =>
      if h == index then Pressed
      else if Distance(h, index) == 1 then Near
      else if Distance(h, index) == 2 then Neighbour
      else NoEmphasis
  }

  /** The Tailwind scale percentage each bucket applies. */
  function Scale(e: Emphasis): nat
  {
    match e
    case Pressed => 150
    case Near => 125
    case Neighbour => 110
    case NoEmphasis => 100
  }

  /** The three-digit percentage of a bucket, written out. */
  lemma ScaleDigits(e: Emphasis, a: nat, b: nat)
    requires a < 10 && b < 10 && Scale(e) == 100 + 10 * a + b
    ensures Decimal(Scale(e)) == ['1', DigitChar(a), DigitChar(b)]
  {
    assert Decimal(10 + a) == Decimal(1) + [DigitChar(a)];
  }

  /** The classes of a letter's bucket: nothing for a letter out of reach,
      otherwise a transform scaling it by the bucket's percentage. */
  function PressureClass(e: Emphasis): (c: string)
    ensures c == "" <==> e == NoEmphasis
    ensures e != NoEmphasis ==> "transform scale-" + Decimal(Scale(e)) <= c
  {
    var transform := "transform scale-";
    match e
    case Pressed =>
      ScaleDigits(e, 5, 0);
      transform + "150" + " text-blue-500 font-bold"
    case Near =>
      ScaleDigits(e, 2, 5);
      transform + "125" + " text-blue-400"
    case Neighbour =>
      ScaleDigits(e, 1, 0);
      transform + "110" + " text-blue-300"
    case NoEmphasis => ""
  }

  /** The pressure fades with distance: a letter closer to the hovered one is
      never scaled less than a letter farther away, and the effect is
      symmetric on both sides of the hovered letter. */
  lemma PressureFadesWithDistance(h: nat, i: nat, j: nat)
    ensures Distance(h, i) <= Distance(h, j) ==> Scale(PressureEmphasis(Some(h), i)) >= Scale(PressureEmphasis(Some(h), j))
    ensures Distance(h, i) == Distance(h, j) ==> PressureEmphasis(Some(h), i) == PressureEmphasis(Some(h), j)
  {
  }

  // ---------------------------------------------------------------------
  // Per-letter rendering
  // ---------------------------------------------------------------------

  const Nbsp: char := '\U{00A0}'

  /** A space is shown as a non-breaking space so that the inline-block span keeps its width. */
  function Glyph(c: char): char
  {
    if c == ' ' then Nbsp else c
  }

  function Unglyph(g: char): char
  {
    if g == Nbsp then ' ' else g
  }

  /** The React key `${letter}-${index}` of a letter span. */
  function LetterKey(letter: char, index: nat): (k: string)
    ensures |k| >= 3 && k[0] == letter && k[1] == '-'
  {
    [letter, '-'] + Decimal(index)
  }

  datatype SpanStyle =
    | PressureStyle(emphasis: Emphasis)
    | WaveStyle(delaySeconds: real)
    | GlowStyle

  datatype Span = Span(key: string, glyph: char, style: SpanStyle)

  /** One span per character, in order, with the style chosen per position. */
  function Letters(text: string, style: nat -> SpanStyle): (spans: seq<Span>)
    ensures |spans| == |text|
    ensures forall i :: 0 <= i < |text| ==> spans[i] == Span(LetterKey(text[i], i), Glyph(text[i]), style(i))
  {
    seq(|text|, i requires 0 <= i < |text| => Span(LetterKey(text[i], i), Glyph(text[i]), style(i)))
  }

  /** The pressure effect: each letter's emphasis bucket follows its distance from the hovered letter. */
  function RenderPressure(text: string, hovered: Option<nat>): (r: seq<Span>)
    ensures |r| == |text|
    ensures forall i :: 0 <= i < |r| ==>
              r[i].glyph == Glyph(text[i]) && r[i].style == PressureStyle(PressureEmphasis(hovered, i))
  {
    Letters(text, (i: nat) => PressureStyle(PressureEmphasis(hovered, i)))
  }

  /** The wave effect: letter `i` starts its animation 0.1 s after letter `i - 1`, the first at once. */
  function RenderWave(text: string): (r: seq<Span>)
    ensures |r| == |text|
    ensures forall i :: 0 <= i < |r| ==> r[i].glyph == Glyph(text[i]) && r[i].style.WaveStyle?
    ensures |r| > 0 ==> r[0].style.delaySeconds == 0.0
    ensures forall i :: 0 < i < |r| ==> r[i].style.delaySeconds == r[i - 1].style.delaySeconds + 0.1
  {
    Letters(text, (i: nat) => WaveStyle(i as real * 0.1))
  }

  /** The glow effect: every letter glows alike. */
  function RenderGlow(text: string): (r: seq<Span>)
    ensures |r| == |text|
    ensures forall i :: 0 <= i < |r| ==> r[i].glyph == Glyph(text[i]) && r[i].style == GlowStyle
  {
    Letters(text, _ => GlowStyle)
  }

  /** No two letter spans share a key, whatever the text (repeated letters included). */
  lemma LetterKeysDistinct(text: string, style: nat -> SpanStyle, i: nat, j: nat)
    requires i < j < |text|
    ensures Letters(text, style)[i].key != Letters(text, style)[j].key
  {
    var ki := LetterKey(text[i], i);
    var kj := LetterKey(text[j], j);
    if ki == kj {
      assert ki[2..] == Decimal(i);
      assert kj[2..] == Decimal(j);
      DecimalInjective(i, j);
    }
  }

  datatype Rendered = LetterSpans(spans: seq<Span>) | PlainText(text: string)

  /** `renderEffect`: the letter effects render spans, the typewriter renders
      what it has typed so far, and any other effect name the raw text. */
  function RenderEffect(text: string, effect: Effect, typed: Typed, hovered: Option<nat>): (r: Rendered)
    ensures effect == Typewriter ==> r == PlainText(typed.displayed)
    ensures effect == Unrecognised ==> r == PlainText(text)
    ensures r.LetterSpans? <==> effect in {Pressure, Wave, Glow}
    ensures r.LetterSpans? ==> |r.spans| == |text|
  {
    match effect
    case Pressure => LetterSpans(RenderPressure(text, hovered))
    case Typewriter => PlainText(typed.displayed)
    case Wave => LetterSpans(RenderWave(text))
    case Glow => LetterSpans(RenderGlow(text))
    case Unrecognised => PlainText(text)
  }

  /** A non-breaking space already in the text is shown as one and reads
      back as a plain space, so such a text is not read back as itself. */
  lemma NbspReadsBackAsSpace()
    ensures Unrender(Shown(RenderEffect(['a', Nbsp], Glow, Blank, None))) == ['a', ' ']
  {
    var r := RenderEffect(['a', Nbsp], Glow, Blank, None);
    assert Shown(r) == [Glyph('a'), Glyph(Nbsp)];
  }

  /** Given only its text, the component shows every letter unpressed until
      one is hovered, and no typewriter timer ever changes its state. */
  lemma {:induction false} DefaultsShowPlainPressure(text: string, typed: Typed, n: nat)
    ensures Ticks(text, DefaultEffect, DefaultLoop, typed, n) == typed
    ensures var r := RenderEffect(text, DefaultEffect, typed, None);
            && r.LetterSpans?
            && forall i :: 0 <= i < |r.spans| ==> r.spans[i].style == PressureStyle(NoEmphasis)
  {
    if n > 0 {
      DefaultsShowPlainPressure(text, typed, n - 1);
    }
  }

  /** The characters a reader sees, in order. */
  function Shown(r: Rendered): string
  {
    match r
    case LetterSpans(spans) => seq(|spans|, i requires 0 <= i < |spans| => spans[i].glyph)
    case PlainText(t) => t
  }

  function Unrender(s: string): (t: string)
    ensures |t| == |s|
  {
    seq(|s|, i requires 0 <= i < |s| => Unglyph(s[i]))
  }

  /** Reading the rendered characters back (non-breaking spaces as spaces)
      gives the text itself for every effect except the typewriter, which
      shows a prefix of it. The text must not already contain a
      non-breaking space, which would read back as a space. */
  lemma ShownTextIsText(text: string, effect: Effect, typed: Typed, hovered: Option<nat>)
    requires Typing(text, typed)
    requires forall i :: 0 <= i < |text| ==> text[i] != Nbsp
    ensures var back := Unrender(Shown(RenderEffect(text, effect, typed, hovered)));
            && back <= text
            && (effect != Typewriter ==> back == text)
  {
    var back := Unrender(Shown(RenderEffect(text, effect, typed, hovered)));
    if effect in {Pressure, Wave, Glow} {
      assert |back| == |text|;
      forall i | 0 <= i < |text| ensures back[i] == text[i] {
      }
    } else if effect == Typewriter {
      assert typed.displayed == text[..typed.index];
      forall i | 0 <= i < |back| ensures back[i] == text[i] {
        assert typed.displayed[i] == text[i];
      }
    } else {
      forall i | 0 <= i < |back| ensures back[i] == text[i] {
      }
    }
  }
}

=== FILE: theme.dfy ===
/**
 The theme provider: the initial theme read from storage, the guarded
 toggle, the completion of the 300 ms transition timer, and the effect that
 pushes the theme into the document root's class list and into storage.

 The `setTimeout` continuation is an explicit `TimerFired` event; the state
 counts the timers that are scheduled and have not fired yet, so that "at
 most one transition in flight" is a provable invariant rather than a comment.
 */
module Theme {
  import opened Common

  /** The theme is whatever string was stored: the provider does not validate it. */
  type ThemeName = string

  const Light: ThemeName := "light"
  const Dark: ThemeName := "dark"

  /** The storage key and the root class the provider uses. */
  const StorageKey: string := "theme"
  const DarkClass: string := "dark"

  datatype ThemeState = ThemeState(theme: ThemeName, isTransitioning: bool, pendingTimers: nat)

  /** The context value seen by a consumer rendered outside any provider. */
  function DefaultContext(): (s: ThemeState)
    ensures s.theme == Dark && !s.isTransitioning
  {
    ThemeState(Dark, false, 0)
  }

  /** `localStorage.getItem('theme') || 'dark'`: a missing or empty stored
      value falls back to dark, anything else is adopted unchanged. */
  function InitialTheme(stored: Option<string>): (t: ThemeName)
    ensures t != ""
    ensures stored == None ==> t == Dark
    ensures stored == Some("") ==> t == Dark
    ensures stored.Some? && stored.value != "" ==> t == stored.value
  {
    match stored
    case None => Dark
    case Some(v) => if v == "" then Dark else v
  }

  /** The provider's first state: the stored theme, or dark without one. */
  function Initial(stored: Option<string>): (s: ThemeState)
    ensures s.theme == InitialTheme(stored)
    ensures Valid(s) && !s.isTransitioning && s.pendingTimers == 0
  {
    ThemeState(InitialTheme(stored), false, 0)
  }

  /** The theme the toggle moves to: the opposite of light is dark, and every
      other theme (dark, or an unrecognised stored string) moves to light. */
  function NextTheme(t: ThemeName): (n: ThemeName)
    ensures n == Light || n == Dark
    ensures n != t
    ensures t == Light <==> n == Dark
  {
    if t == Light then Dark else Light
  }

  /** `toggleTheme`: refused while a transition is in flight; otherwise flips
      the theme at once, raises the guard and schedules the reset timer. */
  function Toggle(s: ThemeState): (r: ThemeState)
    ensures s.isTransitioning ==> r == s
    ensures !s.isTransitioning ==>
              && r.isTransitioning
              && r.theme != s.theme
              && (r.theme == Light || r.theme == Dark)
              && (s.theme == Light ==> r.theme == Dark)
              && (s.theme != Light ==> r.theme == Light)
              && r.pendingTimers == s.pendingTimers + 1
  {
    if s.isTransitioning then s
    else ThemeState(NextTheme(s.theme), true, s.pendingTimers + 1)
  }

  /** The reset timer fires: only the guard is lowered. A timer can fire only
      if one was scheduled. */
  function TimerFired(s: ThemeState): (r: ThemeState)
    ensures s.pendingTimers == 0 ==> r == s
    ensures s.pendingTimers > 0 ==>
              && !r.isTransitioning
              && r.theme == s.theme
              && r.pendingTimers == s.pendingTimers - 1
  {
    if s.pendingTimers == 0 then s
    else ThemeState(s.theme, false, s.pendingTimers - 1)
  }

  datatype ThemeEvent = ToggleRequested | ResetTimerFired

  function Step(s: ThemeState, e: ThemeEvent): ThemeState
  {
    match e
    case ToggleRequested => Toggle(s)
    case ResetTimerFired => TimerFired(s)
  }

  function Run(s: ThemeState, events: seq<ThemeEvent>): ThemeState
    decreases |events|
  {
    if |events| == 0 then s else Run(Step(s, events[0]), events[1..])
  }

  /** The guard is up exactly while one reset timer is outstanding, and the
      theme is never empty. */
  ghost predicate Valid(s: ThemeState)
  {
    && s.theme != ""
    && s.pendingTimers == (if s.isTransitioning then 1 else 0)
  }

  /** Every event keeps the provider valid; in particular a second toggle
      never schedules a second overlapping timer. */
  lemma StepValid(s: ThemeState, e: ThemeEvent)
    requires Valid(s)
    ensures Valid(Step(s, e))
    ensures Step(s, e).pendingTimers <= 1
  {
  }

  lemma {:induction false} RunValid(s: ThemeState, events: seq<ThemeEvent>)
    requires Valid(s)
    ensures Valid(Run(s, events))
    ensures Run(s, events).pendingTimers <= 1
    decreases |events|
  {
    if |events| > 0 {
      StepValid(s, events[0]);
      RunValid(Step(s, events[0]), events[1..]);
    }
  }

  /** Toggles are refused, not queued: any number of further toggle requests
      during a transition leave the state exactly as it was. */
  lemma {:induction false} TogglesDuringTransitionIgnored(s: ThemeState, n: nat)
    requires s.isTransitioning
    ensures Run(s, seq(n, _ => ToggleRequested)) == s
  {
    if n > 0 {
      var evs := seq(n, _ => ToggleRequested);
      assert evs[0] == ToggleRequested;
      assert evs[1..] == seq(n - 1, _ => ToggleRequested);
      TogglesDuringTransitionIgnored(s, n - 1);
    }
  }

  /** Starting from light or dark with no transition in flight, toggling,
      letting the timer fire and toggling again restores the theme. */
  lemma ToggleTwiceRestores(s: ThemeState)
    requires Valid(s) && !s.isTransitioning
    requires s.theme == Light || s.theme == Dark
    ensures Run(s, [ToggleRequested, ResetTimerFired, ToggleRequested]).theme == s.theme
  {
    assert [ToggleRequested, ResetTimerFired, ToggleRequested][1..] == [ResetTimerFired, ToggleRequested];
    assert [ResetTimerFired, ToggleRequested][1..] == [ToggleRequested];
  }

  /** The browser state the provider writes: the root element's classes and
      the local storage entries. */
  datatype Document = Document(rootClasses: set<string>, storage: map<string, string>)

  /** The effect run after every theme change. */
  function Sync(d: Document, t: ThemeName): (r: Document)
    ensures DarkClass in r.rootClasses <==> t == Dark
    ensures forall c :: c != DarkClass ==> (c in r.rootClasses <==> c in d.rootClasses)
    ensures StorageKey in r.storage && r.storage[StorageKey] == t
    ensures forall k :: k != StorageKey ==> (k in r.storage <==> k in d.storage)
    ensures forall k :: k in d.storage && k != StorageKey ==> r.storage[k] == d.storage[k]
  {
    var classes := if t == Dark then d.rootClasses + {DarkClass} else d.rootClasses - {DarkClass};
    Document(classes, d.storage[StorageKey := t])
  }

  function Lookup(m: map<string, string>, k: string): Option<string>
  {
    if k in m then Some(m[k]) else None
  }

  /** Syncing twice is syncing once. */
  lemma SyncIdempotent(d: Document, t: ThemeName)
    ensures Sync(Sync(d, t), t) == Sync(d, t)
  {
  }

  /** What the effect saves is what the next page load starts with: storage
      and the initial-theme resolution are inverse on every valid theme. */
  lemma ReloadRestoresTheme(d: Document, s: ThemeState)
    requires Valid(s)
    ensures InitialTheme(Lookup(Sync(d, s.theme).storage, StorageKey)) == s.theme
  {
  }

  /** The provider together with the document it drives. */
  datatype Provider = Provider(state: ThemeState, doc: Document)

  /** The document agrees with the theme: the root carries the dark class
      exactly when the theme is dark, and storage holds the theme. */
  ghost predicate Consistent(p: Provider)
  {
    && (DarkClass in p.doc.rootClasses <==> p.state.theme == Dark)
    && Lookup(p.doc.storage, StorageKey) == Some(p.state.theme)
  }

  /** Mounting reads the initial theme from storage and runs the effect once. */
  function Mount(d: Document): (p: Provider)
    ensures Valid(p.state) && Consistent(p)
    ensures StorageKey in d.storage && d.storage[StorageKey] != "" ==> p.state.theme == d.storage[StorageKey]
    ensures StorageKey !in d.storage || d.storage[StorageKey] == "" ==> p.state.theme == Dark
  {
    var s := Initial(Lookup(d.storage, StorageKey));
    Provider(s, Sync(d, s.theme))
  }

  /** An event, followed by the effect when (and only when) the theme changed. */
  function ProviderStep(p: Provider, e: ThemeEvent): Provider
  {
    var s := Step(p.state, e);
    if s.theme != p.state.theme then Provider(s, Sync(p.doc, s.theme)) else Provider(s, p.doc)
  }

  function ProviderRun(p: Provider, events: seq<ThemeEvent>): Provider
    decreases |events|
  {
    if |events| == 0 then p else ProviderRun(ProviderStep(p, events[0]), events[1..])
  }

  /** After any sequence of toggles and timer completions the document still
      agrees with the theme and the guard still matches the pending timer. */
  lemma {:induction false} ProviderRunConsistent(p: Provider, events: seq<ThemeEvent>)
    requires Valid(p.state) && Consistent(p)
    ensures Valid(ProviderRun(p, events).state) && Consistent(ProviderRun(p, events))
    decreases |events|
  {
    if |events| > 0 {
      StepValid(p.state, events[0]);
      ProviderRunConsistent(ProviderStep(p, events[0]), events[1..]);
    }
  }
}
